=== FILE: README.md ===
# Asset management service layer, modelled in Dafny

This project models the business rules of the asset-management back end's
service layer. It covers three services:

- `AssignmentService`: an administrator assigns an available asset to an
  enabled user, and lists the assignments of their location with search,
  state and date filters, one sort column and paging.
- `UserService`: lists users with a name and type filter, one sort column and
  paging, and disables a user.
- `ReturningRequestService`: an administrator asks for the asset of an accepted
  assignment to be returned.

The database is a `Store` of four tables (users, assets, assignments,
returning requests), each a sequence in storage order. A lookup by key finds
the first row with that key, as `FindByIdAsync` and `FirstOrDefault` do.

Every state-changing call is a function from a store to a `Transition`. It
holds what the call returns or throws (`Result`: `NotFound`, `BadRequest`,
`Unauthorized`, or `Internal` for a generic exception) and the store after it.
A call that throws either stops before its single save or fails inside it.
In both cases nothing is written, and the store is unchanged.

Both lists run through one pipeline (`Listing.List`):

1. normalise the paging;
2. filter;
3. count the matches;
4. order by one key;
5. cut one page;
6. project.

Its contract is the predicate `Listing.IsListing`. The answer must echo the
normalised paging and count exactly the matching rows. Its data must be the
requested page of *some* ordering of exactly the matching rows, each with its
multiplicity, sorted by the chosen key. Rows with equal keys may come out in
any order, as they may from the database.

The modules:

- `results.dfy`: `Option`, `Result`, `Error`.
- `text.dfy`: white space, `Trim`, `ToLower`, `Contains`.
- `domain.dfy`: the records, the store, lookups, the store invariant `Consistent`.
- `paging.dfy`: paging defaults and the page window.
- `ordering.dfy`: sort keys and a sorted permutation.
- `listing.dfy`: the list pipeline.
- One file per service.
- `workflow.dfy`: lemmas that connect the services.

## Model

The query builders are modelled without contracts of their own, as the
predicates and keys the listing contracts are stated in:
- `AssignmentService.AssignmentMatches` is `GetSpecification`
  (`AssignmentService.cs` lines 161-180).
- `AssignmentService.SortKeyOf` gives the key selectors of `GetOrderBy`
  (lines 141-159).
- `UserService.UserMatches`, with `UserService.NameMatches`, is the filter
  predicate of `FilterUserAsync` (`UserService.cs` lines 50-53).
- `UserService.SortKeyOf` and `UserService.FullName` give the order-by
  expressions and the displayed name (lines 112-158 and 67).

| member | source | states |
|---|---|---|
| `Text.Trim` | AssetManagement.Application/Services/Implementations/AssignmentService.cs:167 | `Search.Trim()`: the result is no longer than the input, is empty exactly when the input is all white space, and neither starts nor ends with white space |
| `Text.TrimUnique` | AssetManagement.Application/Services/Implementations/AssignmentService.cs:167 | any slice with only white space outside it and non-white ends is the trimmed string |
| `Text.TrimIdempotent` | AssetManagement.Application/Services/Implementations/AssignmentService.cs:167 | trimming twice is trimming once |
| `Text.TrimIgnoresPadding` | AssetManagement.Application/Services/Implementations/AssignmentService.cs:167 | white space added at either end does not change the trimmed string |
| `Text.ToLower` | AssetManagement.Application/Services/Implementations/AssignmentService.cs:167 | lower-casing keeps the length and lowers each character on its own |
| `Text.ToLowerIdempotent` | AssetManagement.Application/Services/Implementations/AssignmentService.cs:167 | lower-casing is idempotent and only forgets letter case |
| `Text.LowerKeepsWhiteSpace` | AssetManagement.Application/Services/Implementations/AssignmentService.cs:165 | letter case never decides whether a character is white space |
| `Text.NormalisedTermIgnoresCase` | AssetManagement.Application/Services/Implementations/AssignmentService.cs:167 | two searches that differ only in letter case give the same normalised term `Trim().ToLower()` |
| `Text.ContainsIffOccurs` | AssetManagement.Application/Services/Implementations/AssignmentService.cs:167 | `Contains` holds exactly when the needle occurs at some position of the haystack |
| `Text.ContainsInfix` | AssetManagement.Application/Services/Implementations/AssignmentService.cs:167 | a string contains every piece it is built from |
| `Domain.DateOf` | AssetManagement.Application/Services/Implementations/AssignmentService.cs:177 | `DateTime.Date` is the midnight at or before the instant, less than a day earlier |
| `Domain.SameDateIffSameDay` | AssetManagement.Application/Services/Implementations/AssignmentService.cs:177 | two instants have the same `Date` exactly when they fall on the same day |
| `Domain.FindIndex` | AssetManagement.Application/Services/Implementations/AssignmentService.cs:73 | a lookup by key finds the first row with that key, and finds nothing only when no row has it |
| `Domain.FindIndexSameKeys` | AssetManagement.Application/Services/Implementations/AssignmentService.cs:73 | a lookup reads only primary keys, so updating non-key fields never moves what a later lookup finds |
| `Domain.FindUser` | AssetManagement.Application/Services/Implementations/AssignmentService.cs:59 | `FindByIdAsync` returns a stored user with the key exactly when one exists |
| `Domain.FindAsset` | AssetManagement.Application/Services/Implementations/AssignmentService.cs:73 | `FindOne` by key returns a stored asset with the key exactly when one exists |
| `Domain.FindEnabledUser` | AssetManagement.Application/Services/Implementations/AssignmentService.cs:57-69 | a missing user is `NotFound`, a disabled one `BadRequest`, otherwise the enabled stored user is returned; `GetUserLogined` (`ReturningRequestService.cs` lines 74-86) makes the same check |
| `Domain.TakingAssetKeepsOthers` | AssetManagement.Application/Services/Implementations/AssignmentService.cs:50-51 | marking one asset not available makes no asset available: afterwards an asset is available only if it was before and is not the one marked |
| `Domain.TakingAssetKeepsConsistent` | AssetManagement.Application/Services/Implementations/AssignmentService.cs:47-51 | adding an active assignment on an available asset while marking that asset not available keeps the store invariant |
| `Domain.RestatingActiveKeepsConsistent` | AssetManagement.Application/Services/Implementations/ReturningRequestService.cs:49 | moving an active assignment to another active state keeps the store invariant |
| `Paging.Normalise` | AssetManagement.Application/Services/Implementations/AssignmentService.cs:102-106 | a missing or non-positive page number or size resets both to page 1 of size 5, otherwise both are kept; the result is always positive (`UserService.cs` lines 39-44 apply the same rule) |
| `Paging.NormaliseIdempotent` | AssetManagement.Application/Services/Implementations/AssignmentService.cs:102-106 | normalised paging is left as it is by a second normalisation |
| `Paging.Page` | AssetManagement.Application/Services/Implementations/AssignmentService.cs:115-116 | the page is the run of `min(size, what remains)` records starting at record `(number - 1) * size`, empty past the end |
| `Paging.PageLocates` | AssetManagement.Application/Services/Implementations/AssignmentService.cs:115-116 | record `k` is entry `j` of page `number` exactly when `number = k / size + 1` and `j = k % size`, so the pages partition the list |
| `Paging.PageAsWritten` | AssetManagement.Application/Services/Implementations/AssignmentService.cs:115-116 | with the skip count computed in 32-bit arithmetic: a negative skip is refused by the database as a generic error; otherwise the page is the records from that skip on, at most a page long |
| `Paging.SkipAsWrittenAgreesBelowOverflow` | AssetManagement.Application/Services/Implementations/AssignmentService.cs:115 | while `(number - 1) * size` fits in 32 bits, the page as written is the intended page |
| `Paging.SkipAsWrittenOverflows` | AssetManagement.Application/Services/Implementations/AssignmentService.cs:115 | page 65537 of size 65536 wraps to skip 0 and shows the first record of a one-record table instead of nothing; page 32769 wraps to a negative skip |
| `Ordering.TextKey` | AssetManagement.Application/Services/Implementations/AssignmentService.cs:144 | a null column sorts before every key ascending and after every key descending, as SQL Server places nulls; a present string sorts by its text, strictly on the other side of the null |
| `Ordering.BeforeTotal` | AssetManagement.Application/Services/Implementations/AssignmentService.cs:141-159 | any two sort keys are comparable in either direction |
| `Ordering.BeforeTransitive` | AssetManagement.Application/Services/Implementations/AssignmentService.cs:141-159 | the key order is transitive in either direction |
| `Ordering.SortBy` | AssetManagement.Application/Services/Implementations/AssignmentService.cs:111 | `OrderBy` / `OrderByDescending` return a permutation of their input that is sorted by the key |
| `Listing.Where` | AssetManagement.Application/Services/Implementations/AssignmentService.cs:108 | the filtered list holds each accepted row as often as the table does, and no rejected row |
| `Listing.WhereCount` | AssetManagement.Application/Services/Implementations/AssignmentService.cs:128 | the count of the filtered list is the number of table positions the filter accepts |
| `Listing.Select` | AssetManagement.Application/Services/Implementations/AssignmentService.cs:117-126 | the projection maps each entry in place |
| `Listing.List` | AssetManagement.Application/Services/Implementations/AssignmentService.cs:100-136 | the answer is a listing: paging echoed, total equal to the number of matches, data the projected page of a sorted selection of exactly the matches, at most a page long, every entry coming from a matching row |
| `Listing.WhereSameFilter` | AssetManagement.Application/Services/Implementations/AssignmentService.cs:108 | filters that agree on every row select the same rows |
| `Listing.ListingEntriesMatch` | AssetManagement.Application/Services/Implementations/AssignmentService.cs:107-136 | whatever order a listing picks, each of its entries projects a table row the filter accepts |
| `Listing.ListSameFilter` | AssetManagement.Application/Services/Implementations/AssignmentService.cs:107-136 | filters that agree on every row give the same model answer, which is one of the admissible `IsListing` answers; the database may order ties differently from one run to the next |
| `Listing.CountIgnoresOrderAndPaging` | AssetManagement.Application/Services/Implementations/AssignmentService.cs:128 | the total does not depend on the order, the paging or the projection, only on which rows the filter accepts |
| `AssignmentService.GetAssetById` | AssetManagement.Application/Services/Implementations/AssignmentService.cs:71-83 | a missing asset is `NotFound`, one not `Available` is `BadRequest`; success exactly when the asset is available, returning where it is stored |
| `AssignmentService.CreateAssignment` | AssetManagement.Application/Services/Implementations/AssignmentService.cs:30-55 | the user check wins over the asset check; an assigner (the current user) with no stored user fails the save as a generic error, since the assigner is a required foreign key; an error writes nothing; success returns the fresh key, appends one assignment waiting for acceptance with the current user as assigner, the request's user, asset, note and date, makes that asset `NotAvailable` and changes nothing else |
| `AssignmentService.CreateAssignmentKeepsConsistent` | AssetManagement.Application/Services/Implementations/AssignmentService.cs:47-53 | creation keeps the store invariant: no active assignment holds an available asset and no asset has two active assignments |
| `AssignmentService.CreateAssignmentTakesAsset` | AssetManagement.Application/Services/Implementations/AssignmentService.cs:49-51 | once an asset is assigned, any further request for it fails with `BadRequest` unless its user check fails first |
| `AssignmentService.FilterRequester` | AssetManagement.Application/Services/Implementations/AssignmentService.cs:85-98 | a missing or disabled requester is `Unauthorized`, otherwise the requester is returned |
| `AssignmentService.GetOrderBy` | AssetManagement.Application/Services/Implementations/AssignmentService.cs:141-159 | the first of asset code, asset name, assigned to, assigned by, assigned date, state, last update with a sort option decides, with its direction; none set means assigned date descending |
| `AssignmentService.FilterAssignments` | AssetManagement.Application/Services/Implementations/AssignmentService.cs:84-137 | an unauthorised requester fails before any query; otherwise the answer is a listing of the joined assignments under the filter, with the chosen key and direction |
| `AssignmentService.ListsOnlyOwnLocation` | AssetManagement.Application/Services/Implementations/AssignmentService.cs:163 | every listed entry is a stored assignment whose asset exists and is at the requester's location |
| `AssignmentService.CountIgnoresOrderAndPaging` | AssetManagement.Application/Services/Implementations/AssignmentService.cs:128 | two requests with the same search, states and date get the same total, whatever their sort options and paging |
| `AssignmentService.SearchIgnoresCaseAndPadding` | AssetManagement.Application/Services/Implementations/AssignmentService.cs:165-170 | the search clause accepts the same rows for a search, any re-casing of it and any white-space padding of it |
| `AssignmentService.FilterIgnoresSearchCaseAndPadding` | AssetManagement.Application/Services/Implementations/AssignmentService.cs:165-170 | hence those searches give the same model list answer, which is one of the admissible `IsListing` answers |
| `UserService.FilterRequester` | AssetManagement.Application/Services/Implementations/UserService.cs:35-36 | only a missing requester is `Unauthorized`; a disabled requester is served |
| `UserService.MatchesAsWritten` | AssetManagement.Application/Services/Implementations/UserService.cs:50-53 | without a type filter only the name clause decides, so disabled users and users of other locations match; with one, the user also needs a first role (`FirstOrDefault` of the role names: null for a user without roles) among the listed types, the requester's location and to be enabled |
| `UserService.GetOrderBy` | AssetManagement.Application/Services/Implementations/UserService.cs:112-158 | the first of staff code, full name, joined date, type, last update with a sort option decides, with its direction; none set means joined date descending; the type column sorts by the first role name (`FirstOrDefault`), null for a user without roles |
| `UserService.FilterUsers` | AssetManagement.Application/Services/Implementations/UserService.cs:31-89 | an unknown requester fails; otherwise the answer is a listing of the users under the filter, with the chosen key and direction |
| `UserService.ListsOnlyMatchingUsers` | AssetManagement.Application/Services/Implementations/UserService.cs:49-72 | every listed entry is the projection of a stored user the filter accepts |
| `UserService.CountIgnoresOrderAndPaging` | AssetManagement.Application/Services/Implementations/UserService.cs:55 | two requests with the same name and types get the same total, whatever their sort options and paging |
| `UserService.FullNameOrderDiffersFromDisplay` | AssetManagement.Application/Services/Implementations/UserService.cs:125-131 | sorting by full name uses `FirstName + LastName`, but the list shows `FirstName + " " + LastName` (line 67), so an ascending list can show its full names in descending order |
| `UserService.DisableUser` | AssetManagement.Application/Services/Implementations/UserService.cs:91-110 | every failure, a missing user included, is a generic error that writes nothing; success exactly when the user exists and the update succeeds, and then only that user's disabled flag is set |
| `UserService.DisableUserDisables` | AssetManagement.Application/Services/Implementations/UserService.cs:95-97 | after disabling, the user is still found and is found disabled |
| `UserService.DisableUserIdempotent` | AssetManagement.Application/Services/Implementations/UserService.cs:91-110 | disabling a disabled user succeeds and leaves the same store |
| `UserService.DisableDisabledUserIsNoOp` | AssetManagement.Application/Services/Implementations/UserService.cs:91-103 | disabling a user who is already disabled succeeds and leaves the store exactly as it was |
| `UserService.DisableUserKeepsConsistent` | AssetManagement.Application/Services/Implementations/UserService.cs:96-97 | disabling keeps the store invariant |
| `ReturningRequestService.GetAssignment` | AssetManagement.Application/Services/Implementations/ReturningRequestService.cs:62-73 | a missing assignment is `NotFound`; otherwise the first stored assignment with the key |
| `ReturningRequestService.CheckLocation` | AssetManagement.Application/Services/Implementations/ReturningRequestService.cs:34-35 | a missing assigner or an assigner without location fails as a generic error, a location different from the requester's is `NotFound`, equal locations pass |
| `ReturningRequestService.CreateRequestByAccount` | AssetManagement.Application/Services/Implementations/ReturningRequestService.cs:43-60 | an assignment that is not accepted is `BadRequest` and nothing is written; otherwise only that assignment becomes waiting for returning and one request naming it and the requester is appended |
| `ReturningRequestService.CreateRequestByAdmin` | AssetManagement.Application/Services/Implementations/ReturningRequestService.cs:28-39 | the checks run in the order assignment, requester, location, state; the first failing one decides the error and an error writes nothing |
| `ReturningRequestService.CreateRequestByAdminSucceeds` | AssetManagement.Application/Services/Implementations/ReturningRequestService.cs:49-59 | a success turns the requested, accepted assignment into one waiting for returning, leaves users and assets as they were and records one request by the requester |
| `ReturningRequestService.CreateRequestByAdminKeepsConsistent` | AssetManagement.Application/Services/Implementations/ReturningRequestService.cs:43-60 | asking for a return keeps the store invariant |
| `ReturningRequestService.CreateRequestByAdminOnce` | AssetManagement.Application/Services/Implementations/ReturningRequestService.cs:46-49 | an assignment can be asked back only once: repeating a successful request is `BadRequest` and writes nothing |
| `Workflow.DisabledUserCannotBeAssigned` | AssetManagement.Application/Services/Implementations/AssignmentService.cs:64-67 | after a user is disabled, assigning an asset to them is `BadRequest` and writes nothing |
| `Workflow.DisabledUserCannotRequestReturn` | AssetManagement.Application/Services/Implementations/ReturningRequestService.cs:81-84 | after a user is disabled, their return requests are refused, `BadRequest` once the assignment is found |
| `Workflow.DisabledUserCannotListAssignments` | AssetManagement.Application/Services/Implementations/AssignmentService.cs:96-98 | after a user is disabled, their assignment list is `Unauthorized` |
| `Workflow.DisabledUserCanStillListUsers` | AssetManagement.Application/Services/Implementations/UserService.cs:35-36 | after a user is disabled, their user list is still answered |

## Left out

- Persistence plumbing: EF Core queries, `PredicateBuilder`, `AsNoTracking`, `async` and `ContinueWith`. Each save is one atomic store update.
- Concurrency: two concurrent creations can both read the asset as available before either saves. The model runs calls one at a time, so `Consistent` holds only for sequential calls.
- `Guid.NewGuid()`: keys are natural numbers, and the fresh key is a parameter that must differ from every stored assignment key.
- `UserManager.UpdateAsync`: its outcome is the parameter `updateSucceeds`, and its error messages are dropped.
- Exception messages, and logging in `UserService`.
- `Math.Ceiling` total pages: `UserService.cs` line 74 computes it and never uses it.
- Character semantics:
  - Lower-casing covers only the ASCII letters.
  - String comparison and `Contains` are ordinal.
  - The database's collation rules are not modelled: case-insensitive comparison, culture-aware ordering, and the name filter of the user list, which the model compares case-sensitively.
- Nullable strings: first name, last name and staff code are never null. A null part of `FirstName + LastName` would count as the empty string, in the name filter and in the full-name sort key alike.
- Enumeration ordinals: sorting by assignment state assumes the values are in declaration order. The enumeration file is not part of this model.
- `AssetState` members beyond `Available` and `NotAvailable`: they appear as `Other(code)`, since the services compare only against `Available`. The column is a nullable `int`, and a null asset state behaves as `Other`: it is not `Available`, so `GetAssetById` answers `BadRequest`.
- `Assignment.LastUpdated`: the creation leaves it at the `DateTime` default, 0, because the code never sets it. Audit timestamps that the data layer might fill in are not part of this model.
- `UserService.FilterUsers`: filtering happens before ordering, whereas the code orders the whole table first and filters afterwards. Ties are unordered, so both give the same set of admissible answers.
- `TotalItemCount`: it is an unbounded natural number. The code's `int` count would overflow past 2^31 - 1 matches.
- `GetUserById` (`UserService.cs` lines 160-170): it is not part of the modelled core, and its mapping profile is not part of this model.
- `Listing.List`: it cuts the page with the unbounded skip `Paging.Skip`, the corrected half of the finding below. The 32-bit skip the code computes is modelled only by `Paging.PageAsWritten`; the two agree below 2^31 records (`Paging.SkipAsWrittenAgreesBelowOverflow`).
- `AssignmentService.FilterAssignments`: its page uses the unbounded skip of `Listing.List`, not the wrapped 32-bit skip of `AssignmentService.cs` line 115, for the reason above.
- `UserService.FilterUsers`: its page uses the unbounded skip of `Listing.List`, not the wrapped 32-bit skip of `UserService.cs` line 62, for the reason above.
- Null assignment state: the column is a nullable `int`, but `AssignmentState` has no null. A null state would fail the `Accepted` check with `BadRequest` and never match a states filter.
- Role order: `roles` is a sequence, so the first role is determined. The query's `UserRoles...FirstOrDefault()` has no `OrderBy`, so the database may pick any of a user's roles.
- The generic `Exception` inside `FilterUserAsync`: the list services never fail in the database, because they use the unbounded skip. The negative `OFFSET` that would reach the catch-all at lines 83-88 appears only in `Paging.PageAsWritten`, as `Internal`.

## Findings

| source | as written | input that shows it | evidently intended | confidence | as-written member | corrected member |
|---|---|---|---|---|---|---|
| AssetManagement.Application/Services/Implementations/AssignmentService.cs:115 | the skip count `(PageNumber - 1) * PageSize` is computed in 32-bit `int` and wraps around. `UserService.cs` line 62 does the same | page number 65537 with page size 65536: the skip wraps to 0, so a one-record table shows its record instead of an empty page. Page 32769 wraps to a negative skip | skip `(PageNumber - 1) * PageSize` records, computed without wrap-around, so that pages past the end are empty | not executed | `Paging.SkipAsWrittenOverflows` | `Paging.PageLocates` |

=== FILE: assignment_service.dfy ===
/**
 * `AssignmentService`: creating an assignment (a guarded transition that
 * also takes the asset out of circulation) and the filtered assignment list.
 */
module AssignmentService {
  import opened Results
  import opened Text
  import opened Domain
  import opened Paging
  import opened Ordering
  import opened Listing

  // ---------------------------------------------------------------- creation

  datatype AssignmentCreationRequest = AssignmentCreationRequest(
    userId: Id,
    assetId: Id,
    note: Option<String>,
    assignedDate: DateTime)

  /** The `DateTime` default, left in fields the service does not set. */
  const DefaultDateTime: DateTime := 0

  /** `GetAssetById`: the asset must exist and be `Available`; the answer is
      the position of the asset row the save will update. */
  function GetAssetById(assets: seq<Asset>, assetId: Id): (r: Result<nat>)
    ensures r.Ok? ==> r.value < |assets| && assets[r.value].id == assetId && assets[r.value].state == Available
    ensures r.Ok? ==> FindIndex(assets, AssetKey, assetId) == Some(r.value)
    ensures r.Ok? <==> AssetAvailable(assets, assetId)
    ensures r == Err(NotFound) <==> FindAsset(assets, assetId).None?
    ensures r == Err(BadRequest) <==> FindAsset(assets, assetId).Some? && FindAsset(assets, assetId).value.state != Available
  {
    match FindIndex(assets, AssetKey, assetId)
    case None => Err(NotFound)
    case Some(k) => if assets[k].state != Available then Err(BadRequest) else Ok(k)
  }

  /** The assignment `CreateAssignmentAsync` adds. */
  function NewAssignment(id: Id, currentUserId: Id, request: AssignmentCreationRequest): Assignment {
    Assignment(id, request.assetId, currentUserId, request.userId, request.note,
               request.assignedDate, WaitingForAcceptance, DefaultDateTime)
  }

  /** `CreateAssignmentAsync`: check the user (`GetUserAssignedById`), then
      the asset; on success add one assignment waiting for acceptance and mark
      the asset not available, in one save, and return the new key. `newId` is
      the fresh `Guid`. The assigner is the current user, a required foreign
      key: when no stored user has that key the save fails as a generic error
      and nothing is written. */
  function CreateAssignment(st: Store, currentUserId: Id, request: AssignmentCreationRequest, newId: Id): (t: Transition<Id>)
    requires forall a :: a in st.assignments ==> a.id != newId
    ensures t.result.Err? ==> t.store == st
    ensures FindEnabledUser(st.users, request.userId).Err? ==>
              t.result == Err(FindEnabledUser(st.users, request.userId).error)
    ensures FindEnabledUser(st.users, request.userId).Ok? && GetAssetById(st.assets, request.assetId).Err? ==>
              t.result == Err(GetAssetById(st.assets, request.assetId).error)
    ensures (&& FindEnabledUser(st.users, request.userId).Ok?
             && GetAssetById(st.assets, request.assetId).Ok?
             && FindUser(st.users, currentUserId).None?) ==> t.result == Err(Internal)
    ensures t.result.Ok? <==> && FindEnabledUser(st.users, request.userId).Ok?
                              && AssetAvailable(st.assets, request.assetId)
                              && FindUser(st.users, currentUserId).Some?
    ensures t.result.Ok? ==>
              && t.result.value == newId
              && t.store.users == st.users
              && t.store.returningRequests == st.returningRequests
              && t.store.assignments == st.assignments + [NewAssignment(newId, currentUserId, request)]
              && |t.store.assets| == |st.assets|
              && var k := GetAssetById(st.assets, request.assetId).value;
                 && t.store.assets[k] == st.assets[k].(state := NotAvailable)
                 && forall j :: 0 <= j < |st.assets| && j != k ==> t.store.assets[j] == st.assets[j]
  {
    match FindEnabledUser(st.users, request.userId)
    case Err(e) => Transition(Err(e), st)
    case Ok(assignee) =>
      match GetAssetById(st.assets, request.assetId)
      case Err(e) => Transition(Err(e), st)
      case Ok(k) =>
        if FindUser(st.users, currentUserId).None? then Transition(Err(Internal), st)
        else
        var assignment := NewAssignment(newId, currentUserId, request);
        var assets := st.assets[k := st.assets[k].(state := NotAvailable)];
        Transition(Ok(newId), st.(assets := assets, assignments := st.assignments + [assignment]))
  }

  /** Creating an assignment keeps the store consistent: the asset it takes
      was available, so no active assignment held it, and it leaves the call
      no longer available. */
  lemma CreateAssignmentKeepsConsistent(st: Store, currentUserId: Id, request: AssignmentCreationRequest, newId: Id)
    requires forall a :: a in st.assignments ==> a.id != newId
    requires Consistent(st)
    ensures Consistent(CreateAssignment(st, currentUserId, request, newId).store)
  {
    if CreateAssignment(st, currentUserId, request, newId).result.Ok? {
      var k := GetAssetById(st.assets, request.assetId).value;
      TakingAssetKeepsConsistent(st.assignments, st.assets, k, NewAssignment(newId, currentUserId, request));
    }
  }

  /** Once assigned, an asset cannot be assigned again: a second request for
      it fails with `BadRequest` unless its user check already fails. */
  lemma CreateAssignmentTakesAsset(st: Store, currentUserId: Id, request: AssignmentCreationRequest, newId: Id,
                                   otherUserId: Id, other: AssignmentCreationRequest, otherId: Id)
    requires forall a :: a in st.assignments ==> a.id != newId
    requires CreateAssignment(st, currentUserId, request, newId).result.Ok?
    requires other.assetId == request.assetId
    requires forall a :: a in CreateAssignment(st, currentUserId, request, newId).store.assignments ==> a.id != otherId
    ensures var st' := CreateAssignment(st, currentUserId, request, newId).store;
            var r := CreateAssignment(st', otherUserId, other, otherId).result;
            r == if FindEnabledUser(st'.users, other.userId).Err? then Err(FindEnabledUser(st'.users, other.userId).error)
                 else Err(BadRequest)
  {
    var st' := CreateAssignment(st, currentUserId, request, newId).store;
    FindIndexSameKeys(st.assets, st'.assets, AssetKey, request.assetId);
  }

  // ----------------------------------------------------------------- listing

  datatype FilterAssignmentRequest = FilterAssignmentRequest(
    search: Option<String>,
    states: Option<seq<AssignmentState>>,
    assignedDate: Option<DateTime>,
    sortAssetCode: Option<SortOption>,
    sortAssetName: Option<SortOption>,
    sortAssignedTo: Option<SortOption>,
    sortAssignedBy: Option<SortOption>,
    sortAssignedDate: Option<SortOption>,
    sortState: Option<SortOption>,
    sortLastUpdate: Option<SortOption>,
    pageNumber: Option<Int32>,
    pageSize: Option<Int32>)

  datatype FilterAssignmentResponse = FilterAssignmentResponse(
    id: Id,
    assetCode: Option<String>,
    assetName: Option<String>,
    assignedBy: Option<String>,
    assignedTo: Option<String>,
    assignedDate: DateTime,
    state: AssignmentState)

  /** An assignment with the navigation properties the list query reads
      (`Asset`, `AssignedToUser`, `AssignedByUser`), null when missing. */
  datatype AssignmentRow = AssignmentRow(
    assignment: Assignment,
    asset: Option<Asset>,
    assignedTo: Option<User>,
    assignedBy: Option<User>)

  function JoinRow(st: Store, a: Assignment): AssignmentRow {
    AssignmentRow(a, FindAsset(st.assets, a.assetId), FindUser(st.users, a.assignedToId), FindUser(st.users, a.assignedById))
  }

  /** The assignment table as the query sees it, in storage order. */
  function Rows(st: Store): seq<AssignmentRow> {
    Select(st.assignments, a => JoinRow(st, a))
  }

  /** The stored assignment a listed row was joined from. */
  lemma RowAssignment(st: Store, row: AssignmentRow) returns (a: Assignment)
    requires row in Rows(st)
    ensures a in st.assignments && row == JoinRow(st, a)
  {
    var k :| 0 <= k < |Rows(st)| && Rows(st)[k] == row;
    a := st.assignments[k];
  }

  /** The requester as `FilterAssignmentAsync` loads it: a missing or disabled
      requester is unauthorised. */
  function FilterRequester(users: seq<User>, currentUserId: Id): (r: Result<User>)
    ensures r.Err? ==> r.error == Unauthorized
    ensures r.Ok? <==> FindUser(users, currentUserId).Some? && !FindUser(users, currentUserId).value.isDisabled
    ensures r.Ok? ==> r.value in users && r.value.id == currentUserId
  {
    match FindUser(users, currentUserId)
    case None => Err(Unauthorized)
    case Some(u) => if u.isDisabled then Err(Unauthorized) else Ok(u)
  }

  /** The normalised search term: `Search.Trim().ToLower()`. */
  function SearchTerm(search: String): String {
    ToLower(Trim(search))
  }

  /** A nullable column whose lower case contains `term`. */
  predicate FieldContains(field: Option<String>, term: String) {
    field.Some? && Contains(ToLower(field.value), term)
  }

  /** The search clause: absent for a null or blank search; otherwise the
      asset name, the asset code or the assignee's user name must contain the
      term. */
  predicate SearchMatches(search: Option<String>, row: AssignmentRow) {
    || IsNullOrWhiteSpace(search)
    || var term := SearchTerm(search.value);
       || (row.asset.Some? && FieldContains(row.asset.value.name, term))
       || (row.asset.Some? && FieldContains(row.asset.value.assetCode, term))
       || (row.assignedTo.Some? && FieldContains(row.assignedTo.value.userName, term))
  }

  /** `GetSpecification`: the asset exists and is at the requester's location,
      the search matches, the state is one of the requested states (when any
      are given) and the assigned date falls on the requested day (when one is
      given). */
  predicate AssignmentMatches(filter: FilterAssignmentRequest, location: Option<String>, row: AssignmentRow) {
    && row.asset.Some? && row.asset.value.location == location
    && SearchMatches(filter.search, row)
    && (filter.states.None? || |filter.states.value| == 0 || row.assignment.state in filter.states.value)
    && (filter.assignedDate.None? || DateOf(row.assignment.assignedDate) == DateOf(filter.assignedDate.value))
  }

  function Matcher(filter: FilterAssignmentRequest, location: Option<String>): AssignmentRow -> bool {
    row => AssignmentMatches(filter, location, row)
  }

  /** The columns a list request can sort by, in the order `GetOrderBy` tries them. */
  datatype AssignmentSortField =
    | ByAssetCode | ByAssetName | ByAssignedTo | ByAssignedBy | ByAssignedDate | ByState | ByLastUpdate

  function Rank(field: AssignmentSortField): nat {
    match field
    case ByAssetCode => 0
    case ByAssetName => 1
    case ByAssignedTo => 2
    case ByAssignedBy => 3
    case ByAssignedDate => 4
    case ByState => 5
    case ByLastUpdate => 6
  }

  /** The request's sort option for `field`. */
  function Setting(filter: FilterAssignmentRequest, field: AssignmentSortField): Option<SortOption> {
    match field
    case ByAssetCode => filter.sortAssetCode
    case ByAssetName => filter.sortAssetName
    case ByAssignedTo => filter.sortAssignedTo
    case ByAssignedBy => filter.sortAssignedBy
    case ByAssignedDate => filter.sortAssignedDate
    case ByState => filter.sortState
    case ByLastUpdate => filter.sortLastUpdate
  }

  /** `GetOrderBy`: the first column (in `Rank` order) with a sort option set
      decides the order; with none set, newest assigned date first. */
  function GetOrderBy(filter: FilterAssignmentRequest): (o: (AssignmentSortField, SortOption))
    ensures (forall f :: Setting(filter, f).None?) ==> o == (ByAssignedDate, Desc)
    ensures (exists f :: Setting(filter, f).Some?) ==>
              && Setting(filter, o.0) == Some(o.1)
              && forall f :: Rank(f) < Rank(o.0) ==> Setting(filter, f).None?
  {
    if Setting(filter, ByAssetCode).Some? then (ByAssetCode, filter.sortAssetCode.value)
    else if Setting(filter, ByAssetName).Some? then (ByAssetName, filter.sortAssetName.value)
    else if Setting(filter, ByAssignedTo).Some? then (ByAssignedTo, filter.sortAssignedTo.value)
    else if Setting(filter, ByAssignedBy).Some? then (ByAssignedBy, filter.sortAssignedBy.value)
    else if Setting(filter, ByAssignedDate).Some? then (ByAssignedDate, filter.sortAssignedDate.value)
    else if Setting(filter, ByState).Some? then (ByState, filter.sortState.value)
    else if Setting(filter, ByLastUpdate).Some? then (ByLastUpdate, filter.sortLastUpdate.value)
    else (ByAssignedDate, Desc)
  }

  /** The enumeration value of an assignment state, which the database sorts by. */
  function StateOrdinal(s: AssignmentState): int {
    match s
    case WaitingForAcceptance => 0
    case Accepted => 1
    case Declined => 2
    case WaitingForReturning => 3
    case Returned => 4
  }

  function AssetCodeOf(row: AssignmentRow): Option<String> {
    if row.asset.Some? then row.asset.value.assetCode else None
  }

  function AssetNameOf(row: AssignmentRow): Option<String> {
    if row.asset.Some? then row.asset.value.name else None
  }

  function UserNameOf(u: Option<User>): Option<String> {
    if u.Some? then u.value.userName else None
  }

  /** The sort key of `row` for `field`; a missing navigation gives a null key. */
  function SortKeyOf(field: AssignmentSortField, row: AssignmentRow): SortKey {
    match field
    case ByAssetCode => TextKey(AssetCodeOf(row))
    case ByAssetName => TextKey(AssetNameOf(row))
    case ByAssignedTo => TextKey(UserNameOf(row.assignedTo))
    case ByAssignedBy => TextKey(UserNameOf(row.assignedBy))
    case ByAssignedDate => Number(row.assignment.assignedDate)
    case ByState => Number(StateOrdinal(row.assignment.state))
    case ByLastUpdate => Number(row.assignment.lastUpdated)
  }

  function KeyOf(field: AssignmentSortField): AssignmentRow -> SortKey {
    row => SortKeyOf(field, row)
  }

  /** The response entry of one row. */
  function Project(row: AssignmentRow): FilterAssignmentResponse {
    FilterAssignmentResponse(row.assignment.id, AssetCodeOf(row), AssetNameOf(row),
                             UserNameOf(row.assignedBy), UserNameOf(row.assignedTo),
                             row.assignment.assignedDate, row.assignment.state)
  }

  /** `FilterAssignmentAsync`: the requester must be an enabled user; the
      answer is the requested page of the matching assignments, in the
      requested order, with the number of matches. */
  function FilterAssignments(st: Store, currentUserId: Id, filter: FilterAssignmentRequest): (r: Result<PagedResult<FilterAssignmentResponse>>)
    ensures r.Err? ==> r.error == Unauthorized
    ensures r.Ok? <==> FilterRequester(st.users, currentUserId).Ok?
    ensures r.Ok? ==>
              var me := FilterRequester(st.users, currentUserId).value;
              var o := GetOrderBy(filter);
              IsListing(r.value, Rows(st), Matcher(filter, me.location), KeyOf(o.0), o.1, Project, filter.pageNumber, filter.pageSize)
  {
    match FilterRequester(st.users, currentUserId)
    case Err(e) => Err(e)
    case Ok(me) =>
      var o := GetOrderBy(filter);
      Ok(List(Rows(st), Matcher(filter, me.location), KeyOf(o.0), o.1, Project, filter.pageNumber, filter.pageSize))
  }

  /** An entry that projects a matching row projects a stored assignment
      whose asset is at `location`. */
  lemma MatchingEntryIsOwn(st: Store, filter: FilterAssignmentRequest, location: Option<String>,
                           data: seq<FilterAssignmentResponse>, i: nat)
    requires EntriesMatch(data, Rows(st), Matcher(filter, location), Project)
    requires i < |data|
    ensures exists a :: && a in st.assignments
                        && AssignmentMatches(filter, location, JoinRow(st, a))
                        && FindAsset(st.assets, a.assetId).Some?
                        && FindAsset(st.assets, a.assetId).value.location == location
                        && data[i] == Project(JoinRow(st, a))
  {
    assert data[i] in data;
    var row :| row in Rows(st) && Matcher(filter, location)(row) && data[i] == Project(row);
    var a := RowAssignment(st, row);
    assert AssignmentMatches(filter, location, JoinRow(st, a));
  }

  /** Every listed entry is the projection of a stored assignment whose asset
      is at the requester's own location. */
  lemma ListsOnlyOwnLocation(st: Store, currentUserId: Id, filter: FilterAssignmentRequest, i: nat)
    ensures var r := FilterAssignments(st, currentUserId, filter);
            r.Ok? && i < |r.value.data| ==>
              var me := FilterRequester(st.users, currentUserId).value;
              exists a :: && a in st.assignments
                          && AssignmentMatches(filter, me.location, JoinRow(st, a))
                          && FindAsset(st.assets, a.assetId).Some?
                          && FindAsset(st.assets, a.assetId).value.location == me.location
                          && r.value.data[i] == Project(JoinRow(st, a))
  {
    var r := FilterAssignments(st, currentUserId, filter);
    if r.Ok? && i < |r.value.data| {
      var me := FilterRequester(st.users, currentUserId).value;
      var o := GetOrderBy(filter);
      ListingEntriesMatch(r.value, Rows(st), Matcher(filter, me.location), KeyOf(o.0), o.1, Project, filter.pageNumber, filter.pageSize);
      MatchingEntryIsOwn(st, filter, me.location, r.value.data, i);
    }
  }

  /** Only the search, state and date clauses decide which assignments are
      counted. */
  predicate SameCriteria(f: FilterAssignmentRequest, g: FilterAssignmentRequest) {
    f.search == g.search && f.states == g.states && f.assignedDate == g.assignedDate
  }

  /** The total count does not depend on the sort options or the paging. */
  lemma CountIgnoresOrderAndPaging(st: Store, currentUserId: Id, f: FilterAssignmentRequest, g: FilterAssignmentRequest)
    requires SameCriteria(f, g)
    requires FilterRequester(st.users, currentUserId).Ok?
    ensures FilterAssignments(st, currentUserId, f).value.totalItemCount
         == FilterAssignments(st, currentUserId, g).value.totalItemCount
  {
    var me := FilterRequester(st.users, currentUserId).value;
    var of, og := GetOrderBy(f), GetOrderBy(g);
    Listing.CountIgnoresOrderAndPaging(Rows(st), Matcher(f, me.location), Matcher(g, me.location),
                                       KeyOf(of.0), of.1, Project, f.pageNumber, f.pageSize,
                                       KeyOf(og.0), og.1, Project, g.pageNumber, g.pageSize);
  }

  /** The search clause is blind to letter case and to surrounding white
      space: searching for `front + s + back` or for any re-casing `t` of `s`
      matches the same rows as searching for `s`. */
  lemma SearchIgnoresCaseAndPadding(s: String, t: String, front: String, back: String, row: AssignmentRow)
    requires SameIgnoringCase(s, t)
    requires AllWhiteSpace(front) && AllWhiteSpace(back)
    ensures SearchMatches(Some(s), row) == SearchMatches(Some(t), row)
    ensures SearchMatches(Some(front + s + back), row) == SearchMatches(Some(s), row)
  {
    NormalisedTermIgnoresCase(s, t);
    TrimIgnoresPadding(front, s, back);
    assert |Trim(s)| == |ToLower(Trim(s))| == |ToLower(Trim(t))| == |Trim(t)|;
    assert |Trim(front + s + back)| == |Trim(s)|;
  }

  lemma SameSearchSameMatcher(f: FilterAssignmentRequest, s: String, t: String, location: Option<String>)
    requires forall row :: SearchMatches(Some(s), row) == SearchMatches(Some(t), row)
    ensures forall row :: Matcher(f.(search := Some(s)), location)(row) == Matcher(f.(search := Some(t)), location)(row)
  {
  }

  /** Requests that differ only in searches accepting the same rows get the
      same answer. */
  lemma SameSearchHitsSameAnswer(st: Store, currentUserId: Id, f: FilterAssignmentRequest, s: String, t: String)
    requires forall row :: SearchMatches(Some(s), row) == SearchMatches(Some(t), row)
    ensures FilterAssignments(st, currentUserId, f.(search := Some(s)))
         == FilterAssignments(st, currentUserId, f.(search := Some(t)))
  {
    if FilterRequester(st.users, currentUserId).Ok? {
      var me := FilterRequester(st.users, currentUserId).value;
      var fs, ft := f.(search := Some(s)), f.(search := Some(t));
      var o := GetOrderBy(f);
      assert GetOrderBy(fs) == o && GetOrderBy(ft) == o;
      SameSearchSameMatcher(f, s, t, me.location);
      ListSameFilter(Rows(st), Matcher(fs, me.location), Matcher(ft, me.location), KeyOf(o.0), o.1, Project, f.pageNumber, f.pageSize);
    }
  }

  /** Hence the whole answer is: the same page, order and count. */
  lemma FilterIgnoresSearchCaseAndPadding(st: Store, currentUserId: Id, f: FilterAssignmentRequest,
                                          s: String, t: String, front: String, back: String)
    requires SameIgnoringCase(s, t)
    requires AllWhiteSpace(front) && AllWhiteSpace(back)
    ensures FilterAssignments(st, currentUserId, f.(search := Some(s)))
         == FilterAssignments(st, currentUserId, f.(search := Some(t)))
    ensures FilterAssignments(st, currentUserId, f.(search := Some(front + s + back)))
         == FilterAssignments(st, currentUserId, f.(search := Some(s)))
  {
    forall row
      ensures SearchMatches(Some(s), row) == SearchMatches(Some(t), row)
      ensures SearchMatches(Some(front + s + back), row) == SearchMatches(Some(s), row)
    {
      SearchIgnoresCaseAndPadding(s, t, front, back, row);
    }
    SameSearchHitsSameAnswer(st, currentUserId, f, s, t);
    SameSearchHitsSameAnswer(st, currentUserId, f, front + s + back, s);
  }
}

=== FILE: domain.dfy ===
/**
 * The persisted records the services read and write, each reduced to the
 * fields their rules use, and the store that holds them as tables.
 */
module Domain {
  import opened Results
  import opened Text

  /** A `Guid` primary key. */
  type Id = nat

  /** A `DateTime`, counted in 100-nanosecond ticks. */
  type DateTime = nat

  const TicksPerDay: nat := 864_000_000_000

  /** `DateTime.Date`: the same day at midnight. */
  function DateOf(t: DateTime): (d: DateTime)
    ensures d <= t < d + TicksPerDay
    ensures d % TicksPerDay == 0
  {
    t - t % TicksPerDay
  }

  /** Two instants have the same `Date` exactly when they fall on the same day. */
  lemma SameDateIffSameDay(s: DateTime, t: DateTime)
    ensures DateOf(s) == DateOf(t) <==> s / TicksPerDay == t / TicksPerDay
  {
    assert DateOf(s) == (s / TicksPerDay) * TicksPerDay;
    assert DateOf(t) == (t / TicksPerDay) * TicksPerDay;
  }

  /** The asset states the services compare against; any further member of
      the enumeration is `Other`, identified by its numeric value. */
  datatype AssetState = Available | NotAvailable | Other(code: int)

  datatype AssignmentState =
    | WaitingForAcceptance
    | Accepted
    | Declined
    | WaitingForReturning
    | Returned

  /** An assignment that still holds its asset. */
  predicate Active(s: AssignmentState) {
    s == WaitingForAcceptance || s == Accepted || s == WaitingForReturning
  }

  /** `AppUser`; `roles` lists the names of its roles in `UserRoles` order. */
  datatype User = User(
    id: Id,
    userName: Option<String>,
    firstName: String,
    lastName: String,
    staffCode: String,
    location: Option<String>,
    isDisabled: bool,
    joinedDate: Option<DateTime>,
    lastUpdated: Option<DateTime>,
    roles: seq<String>)

  datatype Asset = Asset(
    id: Id,
    assetCode: Option<String>,
    name: Option<String>,
    state: AssetState,
    location: Option<String>)

  datatype Assignment = Assignment(
    id: Id,
    assetId: Id,
    assignedById: Id,
    assignedToId: Id,
    note: Option<String>,
    assignedDate: DateTime,
    state: AssignmentState,
    lastUpdated: DateTime)

  datatype ReturningRequest = ReturningRequest(assignmentId: Id, requestedByUserId: Id)

  /** The database: one table per entity, each in the order it is enumerated. */
  datatype Store = Store(
    users: seq<User>,
    assets: seq<Asset>,
    assignments: seq<Assignment>,
    returningRequests: seq<ReturningRequest>)

  /** A state-changing call: what it returns or throws, and the store after it.
      A call that throws never reaches its save, so its store is the one it was given. */
  datatype Transition<T> = Transition(result: Result<T>, store: Store)

  function UserKey(u: User): Id { u.id }
  function AssetKey(a: Asset): Id { a.id }
  function AssignmentKey(a: Assignment): Id { a.id }

  /** Position of the first row with primary key `id`, as `FirstOrDefault` finds it. */
  function FindIndex<T>(rows: seq<T>, key: T -> Id, id: Id): (r: Option<nat>)
    ensures r.Some? ==> r.value < |rows| && key(rows[r.value]) == id
    ensures r.Some? ==> forall j :: 0 <= j < r.value ==> key(rows[j]) != id
    ensures r.None? <==> forall j :: 0 <= j < |rows| ==> key(rows[j]) != id
  {
    if |rows| == 0 then None
    else if key(rows[0]) == id then Some(0)
    else
      match FindIndex(rows[1..], key, id)
      case None => None
      case Some(k) => Some(k + 1)
  }

  /** Lookups only see primary keys: tables with the same keys, row by row,
      find the same positions. */
  lemma {:induction false} FindIndexSameKeys<T>(rows: seq<T>, rows': seq<T>, key: T -> Id, id: Id)
    requires |rows| == |rows'|
    requires forall j :: 0 <= j < |rows| ==> key(rows[j]) == key(rows'[j])
    ensures FindIndex(rows, key, id) == FindIndex(rows', key, id)
    decreases |rows|
  {
    if |rows| > 0 && key(rows[0]) != id {
      FindIndexSameKeys(rows[1..], rows'[1..], key, id);
    }
  }

  /** `UserManager.FindByIdAsync`. */
  function FindUser(users: seq<User>, id: Id): (r: Option<User>)
    ensures r.Some? <==> exists j :: 0 <= j < |users| && users[j].id == id
    ensures r.Some? ==> r.value in users && r.value.id == id
  {
    match FindIndex(users, UserKey, id)
    case None => None
    case Some(k) => Some(users[k])
  }

  function FindAsset(assets: seq<Asset>, id: Id): (r: Option<Asset>)
    ensures r.Some? <==> exists j :: 0 <= j < |assets| && assets[j].id == id
    ensures r.Some? ==> r.value in assets && r.value.id == id
  {
    match FindIndex(assets, AssetKey, id)
    case None => None
    case Some(k) => Some(assets[k])
  }

  /** The user check `GetUserAssignedById` and `GetUserLogined` both make: a
      missing user is not found, a disabled one is a bad request. */
  function FindEnabledUser(users: seq<User>, id: Id): (r: Result<User>)
    ensures r.Ok? ==> r.value in users && r.value.id == id && !r.value.isDisabled
    ensures r == Err(NotFound) <==> FindUser(users, id).None?
    ensures r == Err(BadRequest) <==> FindUser(users, id).Some? && FindUser(users, id).value.isDisabled
  {
    match FindUser(users, id)
    case None => Err(NotFound)
    case Some(u) => if u.isDisabled then Err(BadRequest) else Ok(u)
  }

  /** The asset with key `id` exists and is `Available`. */
  predicate AssetAvailable(assets: seq<Asset>, id: Id) {
    match FindAsset(assets, id)
    case None => false
    case Some(a) => a.state == Available
  }

  /** No active assignment holds an asset that is listed as available. */
  ghost predicate NothingAvailableHeld(assignments: seq<Assignment>, assets: seq<Asset>) {
    forall i :: 0 <= i < |assignments| && Active(assignments[i].state) ==>
      !AssetAvailable(assets, assignments[i].assetId)
  }

  /** No asset is held by two active assignments. */
  ghost predicate NoAssetHeldTwice(assignments: seq<Assignment>) {
    forall i, j :: 0 <= i < j < |assignments| && Active(assignments[i].state) && Active(assignments[j].state) ==>
      assignments[i].assetId != assignments[j].assetId
  }

  /** The store invariant the services keep. */
  ghost predicate Consistent(st: Store) {
    NothingAvailableHeld(st.assignments, st.assets) && NoAssetHeldTwice(st.assignments)
  }

  /** Taking an available asset out of circulation makes no other asset
      available: afterwards an asset is available only if it was before and
      is not the one taken. */
  lemma TakingAssetKeepsOthers(assets: seq<Asset>, k: nat, id: Id)
    requires k < |assets| && FindIndex(assets, AssetKey, assets[k].id) == Some(k)
    ensures var assets' := assets[k := assets[k].(state := NotAvailable)];
            AssetAvailable(assets', id) ==> AssetAvailable(assets, id) && id != assets[k].id
  {
    var assets' := assets[k := assets[k].(state := NotAvailable)];
    FindIndexSameKeys(assets, assets', AssetKey, id);
  }

  /** Adding an active assignment on an available asset, and taking that
      asset, keeps the invariant. */
  lemma TakingAssetKeepsConsistent(assignments: seq<Assignment>, assets: seq<Asset>, k: nat, added: Assignment)
    requires k < |assets|
    requires NothingAvailableHeld(assignments, assets) && NoAssetHeldTwice(assignments)
    requires FindIndex(assets, AssetKey, added.assetId) == Some(k) && assets[k].state == Available
    ensures var assets' := assets[k := assets[k].(state := NotAvailable)];
            NothingAvailableHeld(assignments + [added], assets') && NoAssetHeldTwice(assignments + [added])
  {
    var assets' := assets[k := assets[k].(state := NotAvailable)];
    var all := assignments + [added];
    forall i | 0 <= i < |all| && Active(all[i].state)
      ensures !AssetAvailable(assets', all[i].assetId)
    {
      TakingAssetKeepsOthers(assets, k, all[i].assetId);
    }
    forall i | 0 <= i < |assignments| && Active(assignments[i].state)
      ensures assignments[i].assetId != added.assetId
    {
    }
  }

  /** Moving one active assignment to another active state keeps the invariant. */
  lemma RestatingActiveKeepsConsistent(assignments: seq<Assignment>, assets: seq<Asset>, k: nat, s: AssignmentState)
    requires k < |assignments| && Active(assignments[k].state) && Active(s)
    requires NothingAvailableHeld(assignments, assets) && NoAssetHeldTwice(assignments)
    ensures var assignments' := assignments[k := assignments[k].(state := s)];
            NothingAvailableHeld(assignments', assets) && NoAssetHeldTwice(assignments')
  {
    var assignments' := assignments[k := assignments[k].(state := s)];
    assert forall j :: 0 <= j < |assignments| ==>
      assignments'[j].assetId == assignments[j].assetId && (Active(assignments'[j].state) <==> Active(assignments[j].state));
  }
}

=== FILE: listing.dfy ===
/**
 * The filtered list pipeline shared by the assignment and user lists:
 * filter by a predicate, count the matches, order them by one key, cut one
 * page out, and project the page.
 */
module Listing {
  import opened Results
  import opened Paging
  import opened Ordering

  /** `PagingDto<T>`. */
  datatype PagedResult<T> = PagedResult(currentPage: Int32, pageSize: Int32, totalItemCount: nat, data: seq<T>)

  /** `Where(p)`: the rows satisfying `p`, each as often as it occurs. */
  function Where<T(==,!new)>(rows: seq<T>, p: T -> bool): (r: seq<T>)
    ensures forall x :: multiset(r)[x] == if p(x) then multiset(rows)[x] else 0
  {
    if |rows| == 0 then []
    else
      var init, last := rows[..|rows| - 1], rows[|rows| - 1];
      assert rows == init + [last];
      Where(init, p) + (if p(last) then [last] else [])
  }

  /** Positions of the rows satisfying `p`. */
  ghost function Hits<T>(rows: seq<T>, p: T -> bool): set<int> {
    set i | 0 <= i < |rows| && p(rows[i])
  }

  /** The filtered list has one entry per matching position. */
  lemma {:induction false} WhereCount<T(!new)>(rows: seq<T>, p: T -> bool)
    ensures |Where(rows, p)| == |Hits(rows, p)|
  {
    if |rows| > 0 {
      var n := |rows| - 1;
      var init, last := rows[..n], rows[n];
      WhereCount(init, p);
      assert Where(rows, p) == Where(init, p) + (if p(last) then [last] else []);
      HitsSnoc(rows, p);
    }
  }

  /** The matching positions of a table are those of all but its last row,
      plus the last position when that row matches. */
  lemma HitsSnoc<T(!new)>(rows: seq<T>, p: T -> bool)
    requires |rows| > 0
    ensures var n := |rows| - 1;
            && Hits(rows, p) == Hits(rows[..n], p) + (if p(rows[n]) then {n} else {})
            && |Hits(rows, p)| == |Hits(rows[..n], p)| + (if p(rows[n]) then 1 else 0)
  {
    var n := |rows| - 1;
    var init := rows[..n];
    var h, h0 := Hits(rows, p), Hits(init, p);
    var extra: set<int> := if p(rows[n]) then {n} else {};
    forall i
      ensures i in h <==> i in h0 + extra
    {
      if 0 <= i < n {
        assert init[i] == rows[i];
      }
    }
    assert h == h0 + extra;
    assert h0 !! extra;
  }

  /** `Select(project)`. */
  function Select<T, U>(xs: seq<T>, project: T -> U): (r: seq<U>)
    ensures |r| == |xs|
    ensures forall i :: 0 <= i < |xs| ==> r[i] == project(xs[i])
  {
    seq(|xs|, i requires 0 <= i < |xs| => project(xs[i]))
  }

  /** `ordered` holds exactly the rows of `rows` satisfying `p` (with their
      multiplicities), ordered by `key` in direction `dir`. */
  ghost predicate SortedSelection<T(!new)>(ordered: seq<T>, rows: seq<T>, p: T -> bool, key: T -> SortKey, dir: SortOption) {
    && (forall x :: multiset(ordered)[x] == if p(x) then multiset(rows)[x] else 0)
    && SortedBy(ordered, key, dir)
  }

  /** What a list query must answer: the normalised paging echoed, the number
      of matching rows, and the requested page of SOME ordering of the
      matching rows by the key (ties in any order), projected. */
  ghost predicate IsListing<T(!new), U>(r: PagedResult<U>, rows: seq<T>, p: T -> bool, key: T -> SortKey,
                                      dir: SortOption, project: T -> U, number: Option<Int32>, size: Option<Int32>)
  {
    var w := Normalise(number, size);
    && r.currentPage == w.0
    && r.pageSize == w.1
    && r.totalItemCount == |Hits(rows, p)|
    && exists ordered :: SortedSelection(ordered, rows, p, key, dir) && r.data == Select(Page(ordered, w.0, w.1), project)
  }

  /** The pipeline: normalise paging, filter, count, order, page, project. */
  function List<T(==,!new), U>(rows: seq<T>, p: T -> bool, key: T -> SortKey, dir: SortOption,
                          project: T -> U, number: Option<Int32>, size: Option<Int32>): (r: PagedResult<U>)
    ensures IsListing(r, rows, p, key, dir, project, number, size)
    ensures |r.data| <= r.pageSize as int
    ensures EntriesMatch(r.data, rows, p, project)
  {
    var w := Normalise(number, size);
    var matching := Where(rows, p);
    var ordered := SortBy(matching, key, dir);
    var page := Page(ordered, w.0, w.1);
    WhereCount(rows, p);
    assert SortedSelection(ordered, rows, p, key, dir);
    SelectedRowsMatch(ordered, rows, p, key, dir, w.0, w.1, project);
    var r := PagedResult(w.0, w.1, |matching|, Select(page, project));
    ListingWitness(r, rows, p, key, dir, project, number, size, ordered);
    r
  }

  lemma ListingWitness<T(!new), U>(r: PagedResult<U>, rows: seq<T>, p: T -> bool, key: T -> SortKey,
                                   dir: SortOption, project: T -> U, number: Option<Int32>, size: Option<Int32>, ordered: seq<T>)
    requires var w := Normalise(number, size);
             && r.currentPage == w.0 && r.pageSize == w.1 && r.totalItemCount == |Hits(rows, p)|
             && SortedSelection(ordered, rows, p, key, dir)
             && r.data == Select(Page(ordered, w.0, w.1), project)
    ensures IsListing(r, rows, p, key, dir, project, number, size)
  {
  }

  /** Every entry of `data` projects some row the filter accepts. */
  ghost predicate EntriesMatch<T(!new), U>(data: seq<U>, rows: seq<T>, p: T -> bool, project: T -> U) {
    forall i :: 0 <= i < |data| ==> exists x :: x in rows && p(x) && data[i] == project(x)
  }

  /** Every entry of a listing projects a row the filter accepts. */
  lemma ListingEntriesMatch<T(!new), U>(r: PagedResult<U>, rows: seq<T>, p: T -> bool, key: T -> SortKey,
                                        dir: SortOption, project: T -> U, number: Option<Int32>, size: Option<Int32>)
    requires IsListing(r, rows, p, key, dir, project, number, size)
    ensures EntriesMatch(r.data, rows, p, project)
  {
    var w := Normalise(number, size);
    var ordered :| SortedSelection(ordered, rows, p, key, dir) && r.data == Select(Page(ordered, w.0, w.1), project);
    SelectedRowsMatch(ordered, rows, p, key, dir, w.0, w.1, project);
  }

  /** Every projected entry of a page of a sorted selection comes from a matching row. */
  lemma SelectedRowsMatch<T(!new), U>(ordered: seq<T>, rows: seq<T>, p: T -> bool, key: T -> SortKey, dir: SortOption,
                                      number: Int32, size: Int32, project: T -> U)
    requires number >= 1 && size >= 1
    requires SortedSelection(ordered, rows, p, key, dir)
    ensures EntriesMatch(Select(Page(ordered, number, size), project), rows, p, project)
  {
    var page := Page(ordered, number, size);
    var data := Select(page, project);
    forall i | 0 <= i < |data|
      ensures exists x :: x in rows && p(x) && data[i] == project(x)
    {
      var x := page[i];
      assert x == ordered[Skip(number, size) + i];
      assert multiset(ordered)[x] > 0;
      assert x in rows && p(x);
    }
  }

  /** Filters that agree on every row select the same rows. */
  lemma {:induction false} WhereSameFilter<T(!new)>(rows: seq<T>, p: T -> bool, q: T -> bool)
    requires forall x :: p(x) == q(x)
    ensures Where(rows, p) == Where(rows, q)
    decreases |rows|
  {
    if |rows| > 0 {
      WhereSameFilter(rows[..|rows| - 1], p, q);
    }
  }

  /** Only what the filter accepts matters: filters that agree on every row
      give the same listing. */
  lemma ListSameFilter<T(!new), U>(rows: seq<T>, p: T -> bool, q: T -> bool, key: T -> SortKey, dir: SortOption,
                                   project: T -> U, number: Option<Int32>, size: Option<Int32>)
    requires forall x :: p(x) == q(x)
    ensures List(rows, p, key, dir, project, number, size) == List(rows, q, key, dir, project, number, size)
  {
    WhereSameFilter(rows, p, q);
  }

  /** The count does not depend on ordering, paging or projection, only on
      which rows the filter accepts. */
  lemma CountIgnoresOrderAndPaging<T(!new), U, V>(rows: seq<T>, p: T -> bool, q: T -> bool,
                                        key1: T -> SortKey, dir1: SortOption, project1: T -> U, number1: Option<Int32>, size1: Option<Int32>,
                                        key2: T -> SortKey, dir2: SortOption, project2: T -> V, number2: Option<Int32>, size2: Option<Int32>)
    requires forall x :: p(x) == q(x)
    ensures List(rows, p, key1, dir1, project1, number1, size1).totalItemCount
         == List(rows, q, key2, dir2, project2, number2, size2).totalItemCount
  {
    WhereSameFilter(rows, p, q);
  }
}

=== FILE: ordering.dfy ===
/**
 * `OrderBy` / `OrderByDescending` on a single key. Keys are nullable text,
 * dates or enumeration values; nulls sort first when ascending. Rows with
 * equal keys may come out in any order, so the only promise is a sorted
 * permutation.
 */
module Ordering {
  import opened Results

  /** The `SortOption` of a list request. */
  datatype SortOption = Asc | Desc

  /** A sort key: a null, a number (dates, enumeration values) or a string. */
  datatype SortKey = Null | Number(n: int) | Str(s: seq<char>)

  /** Ordinal lexicographic order on strings. */
  predicate LexLe(a: seq<char>, b: seq<char>)
    decreases |a|
  {
    |a| == 0 || (|b| > 0 && (a[0] < b[0] || (a[0] == b[0] && LexLe(a[1..], b[1..]))))
  }

  /** Ascending key order: nulls first, then numbers, then strings. */
  predicate KeyLe(a: SortKey, b: SortKey) {
    match a
    case Null => true
    case Number(x) => b.Str? || (b.Number? && x <= b.n)
    case Str(s) => b.Str? && LexLe(s, b.s)
  }

  /** `a` may come before `b` under the direction `dir`. */
  predicate Before(a: SortKey, b: SortKey, dir: SortOption) {
    if dir == Asc then KeyLe(a, b) else KeyLe(b, a)
  }

  /** The key of a nullable string column. As in SQL Server, a null comes
      before every key when ascending and after every key when descending; a
      present string sorts by its text, strictly after the null ascending and
      strictly before it descending. */
  function TextKey(s: Option<seq<char>>): (k: SortKey)
    ensures s.None? ==> forall b :: Before(k, b, Asc) && Before(b, k, Desc)
    ensures s.Some? ==> k == Str(s.value) && !Before(k, Null, Asc) && !Before(Null, k, Desc)
  {
    match s
    case None => Null
    case Some(t) => Str(t)
  }

  lemma {:induction false} LexLeTotal(a: seq<char>, b: seq<char>)
    ensures LexLe(a, b) || LexLe(b, a)
    decreases |a|
  {
    if |a| > 0 && |b| > 0 && a[0] == b[0] {
      LexLeTotal(a[1..], b[1..]);
    }
  }

  lemma {:induction false} LexLeTransitive(a: seq<char>, b: seq<char>, c: seq<char>)
    requires LexLe(a, b) && LexLe(b, c)
    ensures LexLe(a, c)
    decreases |a|
  {
    if |a| > 0 && a[0] == b[0] && b[0] == c[0] {
      LexLeTransitive(a[1..], b[1..], c[1..]);
    }
  }

  /** Any two keys are comparable, in either direction. */
  lemma BeforeTotal(a: SortKey, b: SortKey, dir: SortOption)
    ensures Before(a, b, dir) || Before(b, a, dir)
  {
    if a.Str? && b.Str? {
      LexLeTotal(a.s, b.s);
    }
  }

  lemma BeforeTransitive(a: SortKey, b: SortKey, c: SortKey, dir: SortOption)
    requires Before(a, b, dir) && Before(b, c, dir)
    ensures Before(a, c, dir)
  {
    if a.Str? && b.Str? && c.Str? {
      if dir == Asc {
        LexLeTransitive(a.s, b.s, c.s);
      } else {
        LexLeTransitive(c.s, b.s, a.s);
      }
    }
  }

  /** `xs` is ordered by `key` in direction `dir`. */
  ghost predicate SortedBy<T>(xs: seq<T>, key: T -> SortKey, dir: SortOption) {
    forall i, j :: 0 <= i < j < |xs| ==> Before(key(xs[i]), key(xs[j]), dir)
  }

  /** Insert `x` in front of the first element it may precede. */
  function Insert<T(==)>(x: T, xs: seq<T>, key: T -> SortKey, dir: SortOption): (r: seq<T>)
    ensures multiset(r) == multiset(xs) + multiset{x}
  {
    if |xs| == 0 then [x]
    else if Before(key(x), key(xs[0]), dir) then [x] + xs
    else
      assert xs == [xs[0]] + xs[1..];
      [xs[0]] + Insert(x, xs[1..], key, dir)
  }

  /** Putting `y` in front of a sorted sequence whose elements it may all
      precede keeps it sorted. */
  lemma ConsSorted<T>(y: T, rest: seq<T>, key: T -> SortKey, dir: SortOption)
    requires SortedBy(rest, key, dir)
    requires forall j :: 0 <= j < |rest| ==> Before(key(y), key(rest[j]), dir)
    ensures SortedBy([y] + rest, key, dir)
  {
    var r := [y] + rest;
    forall i, j | 0 <= i < j < |r|
      ensures Before(key(r[i]), key(r[j]), dir)
    {
      assert r[j] == rest[j - 1];
      if i > 0 {
        assert r[i] == rest[i - 1];
      }
    }
  }

  /** An element of `Insert(x, xs)` is `x` or an element of `xs`. */
  lemma InsertMember<T>(x: T, xs: seq<T>, key: T -> SortKey, dir: SortOption, y: T)
    requires y in Insert(x, xs, key, dir)
    ensures y == x || y in xs
  {
    assert y in multiset(Insert(x, xs, key, dir));
  }

  lemma {:induction false} InsertSorted<T>(x: T, xs: seq<T>, key: T -> SortKey, dir: SortOption)
    requires SortedBy(xs, key, dir)
    ensures SortedBy(Insert(x, xs, key, dir), key, dir)
    decreases |xs|
  {
    if |xs| > 0 {
      if Before(key(x), key(xs[0]), dir) {
        forall j | 0 <= j < |xs|
          ensures Before(key(x), key(xs[j]), dir)
        {
          if j > 0 {
            BeforeTransitive(key(x), key(xs[0]), key(xs[j]), dir);
          }
        }
        ConsSorted(x, xs, key, dir);
      } else {
        BeforeTotal(key(x), key(xs[0]), dir);
        var tail := xs[1..];
        InsertSorted(x, tail, key, dir);
        var rest := Insert(x, tail, key, dir);
        forall j | 0 <= j < |rest|
          ensures Before(key(xs[0]), key(rest[j]), dir)
        {
          InsertMember(x, tail, key, dir, rest[j]);
        }
        ConsSorted(xs[0], rest, key, dir);
      }
    }
  }

  /** A sorted permutation of `xs`: insertion sort. */
  function SortBy<T(==)>(xs: seq<T>, key: T -> SortKey, dir: SortOption): (r: seq<T>)
    ensures multiset(r) == multiset(xs)
    ensures SortedBy(r, key, dir)
  {
    if |xs| == 0 then []
    else
      var sortedTail := SortBy(xs[1..], key, dir);
      InsertSorted(xs[0], sortedTail, key, dir);
      assert xs == [xs[0]] + xs[1..];
      Insert(xs[0], sortedTail, key, dir)
  }
}

=== FILE: paging.dfy ===
/**
 * Paging of list queries: defaulting of the requested page number and size,
 * and the `Skip((number - 1) * size).Take(size)` window.
 */
module Paging {
  import opened Results

  /** C#'s `int`. */
  newtype Int32 = x: int | -0x8000_0000 <= x < 0x8000_0000

  const DefaultPageNumber: Int32 := 1
  const DefaultPageSize: Int32 := 5

  function Min(a: int, b: int): int { if a <= b then a else b }
  function Max(a: int, b: int): int { if a <= b then b else a }

  /** Paging defaulting: a missing or non-positive page number or page size
      resets BOTH to page 1 of size 5; otherwise both are kept. */
  function Normalise(number: Option<Int32>, size: Option<Int32>): (w: (Int32, Int32))
    ensures w.0 >= 1 && w.1 >= 1
    ensures number.Some? && size.Some? && number.value > 0 && size.value > 0 ==> w == (number.value, size.value)
    ensures number.None? || size.None? || number.value <= 0 || size.value <= 0 ==> w == (DefaultPageNumber, DefaultPageSize)
  {
    if number.None? || size.None? || number.value <= 0 || size.value <= 0 then
      (DefaultPageNumber, DefaultPageSize)
    else
      (number.value, size.value)
  }

  /** Normalised paging is a fixed point of normalisation. */
  lemma NormaliseIdempotent(number: Option<Int32>, size: Option<Int32>)
    ensures var w := Normalise(number, size); Normalise(Some(w.0), Some(w.1)) == w
  {
  }

  /** Number of records before page `number`. */
  function Skip(number: Int32, size: Int32): nat
    requires number >= 1 && size >= 1
  {
    (number as int - 1) * (size as int)
  }

  /** `Skip(Skip(number, size)).Take(size)`: page `number` of `xs`. */
  function Page<T>(xs: seq<T>, number: Int32, size: Int32): (r: seq<T>)
    requires number >= 1 && size >= 1
    ensures |r| == Min(size as int, Max(0, |xs| - Skip(number, size)))
    ensures forall k :: 0 <= k < |r| ==> r[k] == xs[Skip(number, size) + k]
  {
    var lo := Min(Skip(number, size), |xs|);
    var hi := Min(Skip(number, size) + size as int, |xs|);
    xs[lo..hi]
  }

  lemma {:induction false} MulAtLeast(t: int, s: int)
    requires t >= 1 && s > 0
    ensures t * s >= s
  {
    if t > 1 {
      MulAtLeast(t - 1, s);
      assert t * s == (t - 1) * s + s;
    }
  }

  /** The only multiple of `s` strictly between `-s` and `s` is zero. */
  lemma SmallMultiple(t: int, s: int)
    requires s > 0 && -s < t * s < s
    ensures t == 0
  {
    if t >= 1 {
      MulAtLeast(t, s);
    } else if t <= -1 {
      MulAtLeast(-t, s);
    }
  }

  lemma DivModUnique(q: nat, j: nat, s: nat)
    requires j < s
    ensures (q * s + j) / s == q && (q * s + j) % s == j
  {
    var x := q * s + j;
    var d, m := x / s, x % s;
    assert d * s + m == q * s + j;
    assert (d - q) * s == j - m;
    SmallMultiple(d - q, s);
  }

  /** Every record sits on exactly one page, at exactly one position:
      record `k` is entry `j` of page `number` iff `number` is `k / size + 1`
      and `j` is `k % size`. */
  lemma {:induction false} PageLocates<T>(xs: seq<T>, size: Int32, k: nat, number: Int32, j: nat)
    requires size >= 1 && number >= 1 && k < |xs|
    ensures (j < |Page(xs, number, size)| && Skip(number, size) + j == k)
        <==> (number as int == k / size as int + 1 && j == k % size as int)
  {
    var s := size as int;
    if j < |Page(xs, number, size)| && Skip(number, size) + j == k {
      DivModUnique(number as int - 1, j, s);
    }
    if number as int == k / s + 1 && j == k % s {
      assert Skip(number, size) == (k / s) * s;
    }
  }

  /** Two's-complement truncation to 32 bits, as unchecked C# arithmetic does. */
  function Wrap32(x: int): (r: Int32)
    ensures (r as int - x) % 0x1_0000_0000 == 0
    ensures -0x8000_0000 <= x < 0x8000_0000 ==> r as int == x
  {
    var m := x % 0x1_0000_0000;
    if m < 0x8000_0000 then m as Int32 else (m - 0x1_0000_0000) as Int32
  }

  /** The skip count exactly as written: `(number - 1) * size` in `int`
      arithmetic, which wraps around. */
  function SkipAsWritten(number: Int32, size: Int32): Int32 {
    Wrap32((number as int - 1) * (size as int))
  }

  /** The page as written. `Skip` and `Take` become the `OFFSET` and `FETCH`
      of the SQL Server query, so a wrapped skip that is negative is rejected
      by the database and surfaces as a generic error; a non-negative one,
      however wrong, selects the records from that offset on. */
  function PageAsWritten<T>(xs: seq<T>, number: Int32, size: Int32): (r: Result<seq<T>>)
    requires number >= 1 && size >= 1
    ensures r.Err? <==> SkipAsWritten(number, size) < 0
    ensures r.Err? ==> r.error == Internal
    ensures r.Ok? ==> |r.value| == Min(size as int, Max(0, |xs| - SkipAsWritten(number, size) as int))
    ensures r.Ok? ==> forall k :: 0 <= k < |r.value| ==> r.value[k] == xs[SkipAsWritten(number, size) as int + k]
  {
    var skip := SkipAsWritten(number, size) as int;
    if skip < 0 then Err(Internal)
    else
      var lo := Min(skip, |xs|);
      var hi := Min(skip + size as int, |xs|);
      Ok(xs[lo..hi])
  }

  /** Below the overflow threshold the written and the intended skip agree. */
  lemma SkipAsWrittenAgreesBelowOverflow<T>(xs: seq<T>, number: Int32, size: Int32)
    requires number >= 1 && size >= 1
    requires Skip(number, size) < 0x8000_0000
    ensures SkipAsWritten(number, size) as int == Skip(number, size)
    ensures PageAsWritten(xs, number, size) == Ok(Page(xs, number, size))
  {
  }

  /** The wrap-around exhibited: page 65537 of size 65536 should start at
      record 2^32 and so be empty for any smaller table, but the written skip
      is 0 and a one-record table shows its record; page 32769 of that size
      gives a negative skip, which the database refuses. */
  lemma SkipAsWrittenOverflows<T>(x: T)
    ensures Skip(65537, 65536) == 0x1_0000_0000 && SkipAsWritten(65537, 65536) == 0
    ensures Page([x], 65537, 65536) == [] && PageAsWritten([x], 65537, 65536) == Ok([x])
    ensures SkipAsWritten(32769, 65536) as int == -0x8000_0000
    ensures Page([x], 32769, 65536) == [] && PageAsWritten([x], 32769, 65536) == Err(Internal)
  {
    var r := PageAsWritten([x], 65537, 65536);
    assert |r.value| == 1 && r.value[0] == x;
    assert r.value == [x];
  }
}

=== FILE: results.dfy ===
/** Values the service layer returns in place of nulls and thrown exceptions. */
module Results {

  /** A nullable reference or nullable value: `None` stands for C#'s `null`. */
  datatype Option<+T> = None | Some(value: T)

  /** The exception families the services raise, one per HTTP error class. */
  datatype Error =
    | NotFound      // NotFoundException: the referenced record does not exist
    | BadRequest    // BadRequestException: the record exists but is in the wrong state
    | Unauthorized  // UnauthorizedAccessException: the requester is missing or disabled
    | Internal      // a plain Exception: the original cause is masked or was a null dereference

  /** Either the value a service returns or the exception it throws. */
  datatype Result<+T> = Ok(value: T) | Err(error: Error)
}

=== FILE: returning_request_service.dfy ===
/**
 * `ReturningRequestService`: an administrator asks for an accepted
 * assignment's asset to be returned.
 */
module ReturningRequestService {
  import opened Results
  import opened Domain

  /** `GetAssignment`: the position of the assignment with key `assignmentId`. */
  function GetAssignment(assignments: seq<Assignment>, assignmentId: Id): (r: Result<nat>)
    ensures r.Err? <==> forall j :: 0 <= j < |assignments| ==> assignments[j].id != assignmentId
    ensures r.Err? ==> r.error == NotFound
    ensures r.Ok? ==> r.value < |assignments| && assignments[r.value].id == assignmentId
    ensures r.Ok? ==> forall j :: 0 <= j < r.value ==> assignments[j].id != assignmentId
  {
    match FindIndex(assignments, AssignmentKey, assignmentId)
    case None => Err(NotFound)
    case Some(k) => Ok(k)
  }

  /** `CreateRequestByAccountAsync`: only an accepted assignment can be asked
      back; it then waits for returning and one request is recorded. */
  function CreateRequestByAccount(st: Store, k: nat, requester: User): (t: Transition<()>)
    requires k < |st.assignments|
    ensures t.result.Err? ==> t.result.error == BadRequest && t.store == st
    ensures t.result.Ok? <==> st.assignments[k].state == Accepted
    ensures t.result.Ok? ==>
              && t.store.users == st.users
              && t.store.assets == st.assets
              && |t.store.assignments| == |st.assignments|
              && t.store.assignments[k] == st.assignments[k].(state := WaitingForReturning)
              && (forall j :: 0 <= j < |st.assignments| && j != k ==> t.store.assignments[j] == st.assignments[j])
              && t.store.returningRequests == st.returningRequests + [ReturningRequest(st.assignments[k].id, requester.id)]
  {
    var assignment := st.assignments[k];
    if assignment.state != Accepted then Transition(Err(BadRequest), st)
    else
      Transition(Ok(()), st.(assignments := st.assignments[k := assignment.(state := WaitingForReturning)],
                             returningRequests := st.returningRequests + [ReturningRequest(assignment.id, requester.id)]))
  }

  /** The location check: the assigning administrator's location must equal
      the requester's. A missing administrator or a null location is
      dereferenced and fails as a generic error; a mismatch hides the
      assignment as not found. */
  function CheckLocation(users: seq<User>, assignment: Assignment, requester: User): (r: Result<()>)
    ensures r.Ok? <==> var admin := FindUser(users, assignment.assignedById);
                      admin.Some? && admin.value.location.Some? && admin.value.location == requester.location
    ensures r == Err(Internal) <==> var admin := FindUser(users, assignment.assignedById);
                                    admin.None? || admin.value.location.None?
    ensures r.Err? ==> r.error == Internal || r.error == NotFound
  {
    match FindUser(users, assignment.assignedById)
    case None => Err(Internal)
    case Some(admin) =>
      match admin.location
      case None => Err(Internal)
      case Some(loc) => if requester.location == Some(loc) then Ok(()) else Err(NotFound)
  }

  /** `CreateRequestByAdminAsync`: the checks run in the order assignment,
      requester (`GetUserLogined`), location, state; the first failing one
      decides the error and nothing is written. */
  function CreateRequestByAdmin(st: Store, currentUserId: Id, assignmentId: Id): (t: Transition<()>)
    ensures t.result.Err? ==> t.store == st
    ensures GetAssignment(st.assignments, assignmentId).Err? ==> t.result == Err(NotFound)
    ensures GetAssignment(st.assignments, assignmentId).Ok? && FindEnabledUser(st.users, currentUserId).Err? ==>
              t.result == Err(FindEnabledUser(st.users, currentUserId).error)
    ensures GetAssignment(st.assignments, assignmentId).Ok? && FindEnabledUser(st.users, currentUserId).Ok? ==>
              var k := GetAssignment(st.assignments, assignmentId).value;
              var me := FindEnabledUser(st.users, currentUserId).value;
              && (CheckLocation(st.users, st.assignments[k], me).Err? ==> t.result == Err(CheckLocation(st.users, st.assignments[k], me).error))
              && (CheckLocation(st.users, st.assignments[k], me).Ok? ==> t == CreateRequestByAccount(st, k, me))
  {
    match GetAssignment(st.assignments, assignmentId)
    case Err(e) => Transition(Err(e), st)
    case Ok(k) =>
      match FindEnabledUser(st.users, currentUserId)
      case Err(e) => Transition(Err(e), st)
      case Ok(me) =>
        match CheckLocation(st.users, st.assignments[k], me)
        case Err(e) => Transition(Err(e), st)
        case Ok(_) => CreateRequestByAccount(st, k, me)
  }

  /** A successful request turns exactly one accepted assignment, the
      requested one, into one waiting for returning, and records who asked. */
  lemma CreateRequestByAdminSucceeds(st: Store, currentUserId: Id, assignmentId: Id)
    requires CreateRequestByAdmin(st, currentUserId, assignmentId).result.Ok?
    ensures var st' := CreateRequestByAdmin(st, currentUserId, assignmentId).store;
            exists k :: && 0 <= k < |st.assignments|
                        && st.assignments[k].id == assignmentId
                        && st.assignments[k].state == Accepted
                        && st'.assignments == st.assignments[k := st.assignments[k].(state := WaitingForReturning)]
    ensures var st' := CreateRequestByAdmin(st, currentUserId, assignmentId).store;
            && st'.users == st.users
            && st'.assets == st.assets
            && st'.returningRequests == st.returningRequests + [ReturningRequest(assignmentId, currentUserId)]
  {
    var k := GetAssignment(st.assignments, assignmentId).value;
    var st' := CreateRequestByAdmin(st, currentUserId, assignmentId).store;
    assert st'.assignments == st.assignments[k := st.assignments[k].(state := WaitingForReturning)];
  }

  /** Asking for a return keeps the store consistent: the assignment stays
      active and keeps its asset. */
  lemma CreateRequestByAdminKeepsConsistent(st: Store, currentUserId: Id, assignmentId: Id)
    requires Consistent(st)
    ensures Consistent(CreateRequestByAdmin(st, currentUserId, assignmentId).store)
  {
    if CreateRequestByAdmin(st, currentUserId, assignmentId).result.Ok? {
      var k := GetAssignment(st.assignments, assignmentId).value;
      RestatingActiveKeepsConsistent(st.assignments, st.assets, k, WaitingForReturning);
    }
  }

  /** An assignment can be asked back only once: a repeated request fails
      with `BadRequest`, because the assignment is no longer accepted. */
  lemma CreateRequestByAdminOnce(st: Store, currentUserId: Id, assignmentId: Id)
    requires CreateRequestByAdmin(st, currentUserId, assignmentId).result.Ok?
    ensures var st' := CreateRequestByAdmin(st, currentUserId, assignmentId).store;
            CreateRequestByAdmin(st', currentUserId, assignmentId) == Transition(Err(BadRequest), st')
  {
    var st' := CreateRequestByAdmin(st, currentUserId, assignmentId).store;
    FindIndexSameKeys(st.assignments, st'.assignments, AssignmentKey, assignmentId);
  }
}

=== FILE: text.dfy ===
/**
 * The string operations the list filters rely on: `string.IsNullOrWhiteSpace`,
 * `string.IsNullOrEmpty`, `Trim`, `ToLower` and `Contains`.
 */
module Text {
  import opened Results

  type String = seq<char>

  /** `char.IsWhiteSpace`: the Unicode space, line and paragraph separators,
      U+0009..U+000D and U+0085. */
  predicate IsWhiteSpace(c: char) {
    || ('\t' <= c <= '\r')
    || c == ' ' || c == '\U{0085}' || c == '\U{00A0}' || c == '\U{1680}'
    || ('\U{2000}' <= c <= '\U{200A}')
    || c == '\U{2028}' || c == '\U{2029}' || c == '\U{202F}' || c == '\U{205F}' || c == '\U{3000}'
  }

  predicate AllWhiteSpace(s: String) {
    forall i :: 0 <= i < |s| ==> IsWhiteSpace(s[i])
  }

  predicate IsNullOrWhiteSpace(s: Option<String>) {
    s.None? || AllWhiteSpace(s.value)
  }

  predicate IsNullOrEmpty(s: Option<String>) {
    s.None? || |s.value| == 0
  }

  /** The first position at or after `i` that does not hold white space,
      or `|s|` when there is none. */
  function SkipWhiteForward(s: String, i: nat): (k: nat)
    requires i <= |s|
    ensures i <= k <= |s|
    ensures forall j :: i <= j < k ==> IsWhiteSpace(s[j])
    ensures k < |s| ==> !IsWhiteSpace(s[k])
    decreases |s| - i
  {
    if i == |s| || !IsWhiteSpace(s[i]) then i else SkipWhiteForward(s, i + 1)
  }

  /** The position just after the last character before `j` that is not
      white space, but no lower than `lo`. */
  function SkipWhiteBackward(s: String, lo: nat, j: nat): (k: nat)
    requires lo <= j <= |s|
    ensures lo <= k <= j
    ensures forall m :: k <= m < j ==> IsWhiteSpace(s[m])
    ensures lo < k ==> !IsWhiteSpace(s[k - 1])
    decreases j
  {
    if j == lo || !IsWhiteSpace(s[j - 1]) then j else SkipWhiteBackward(s, lo, j - 1)
  }

  /** Every character of `s` outside `[a, b)` is white space. */
  predicate WhiteOutside(s: String, a: nat, b: nat)
    requires a <= b <= |s|
  {
    forall i :: 0 <= i < |s| && !(a <= i < b) ==> IsWhiteSpace(s[i])
  }

  /** The bounds `Trim` keeps: everything outside is white space and,
      unless nothing is kept, both kept ends are not. */
  function TrimBounds(s: String): (ab: (nat, nat))
    ensures ab.0 <= ab.1 <= |s|
    ensures WhiteOutside(s, ab.0, ab.1)
    ensures ab.0 < ab.1 ==> !IsWhiteSpace(s[ab.0]) && !IsWhiteSpace(s[ab.1 - 1])
    ensures ab.0 == ab.1 ==> ab.0 == |s|
  {
    var a := SkipWhiteForward(s, 0);
    (a, SkipWhiteBackward(s, a, |s|))
  }

  /** `string.Trim()`: drop leading and trailing white space. */
  function Trim(s: String): (r: String)
    ensures |r| <= |s|
    ensures |r| == 0 <==> AllWhiteSpace(s)
    ensures |r| > 0 ==> !IsWhiteSpace(r[0]) && !IsWhiteSpace(r[|r| - 1])
  {
    var ab := TrimBounds(s);
    s[ab.0..ab.1]
  }

  /** Any split of `s` into white space, a kept part with non-white ends, and
      white space is the one `Trim` finds. */
  lemma TrimUnique(s: String, a: nat, b: nat)
    requires a <= b <= |s|
    requires WhiteOutside(s, a, b)
    requires a < b ==> !IsWhiteSpace(s[a]) && !IsWhiteSpace(s[b - 1])
    ensures Trim(s) == s[a..b]
  {
    var ab := TrimBounds(s);
    var a0, b0 := ab.0, ab.1;
    if a < b {
      assert !IsWhiteSpace(s[a]) && !IsWhiteSpace(s[b - 1]);
      assert a0 == a && b0 == b;
    }
  }

  /** Trimming twice is trimming once. */
  lemma TrimIdempotent(s: String)
    ensures Trim(Trim(s)) == Trim(s)
  {
    var r := Trim(s);
    TrimUnique(r, 0, |r|);
  }

  /** White space around a search term makes no difference once trimmed. */
  lemma TrimIgnoresPadding(front: String, s: String, back: String)
    requires AllWhiteSpace(front) && AllWhiteSpace(back)
    ensures Trim(front + s + back) == Trim(s)
  {
    var ab := TrimBounds(s);
    var a, b := ab.0, ab.1;
    var u, n := front + s + back, |front|;
    PaddedWhiteOutside(front, s, back, a, b);
    MiddleSlice(front, s, back, a, b);
    if a < b {
      assert u[n + a] == s[a] && u[n + b - 1] == s[b - 1];
    }
    TrimUnique(u, n + a, n + b);
  }

  lemma PaddedWhiteOutside(front: String, s: String, back: String, a: nat, b: nat)
    requires a <= b <= |s|
    requires AllWhiteSpace(front) && AllWhiteSpace(back) && WhiteOutside(s, a, b)
    ensures WhiteOutside(front + s + back, |front| + a, |front| + b)
  {
    var u, n := front + s + back, |front|;
    forall i | 0 <= i < |u| && !(n + a <= i < n + b)
      ensures IsWhiteSpace(u[i])
    {
      if i < n {
        assert u[i] == front[i];
      } else if i < n + |s| {
        assert u[i] == s[i - n];
      } else {
        assert u[i] == back[i - n - |s|];
      }
    }
  }

  lemma MiddleSlice(front: String, s: String, back: String, a: nat, b: nat)
    requires a <= b <= |s|
    ensures (front + s + back)[|front| + a..|front| + b] == s[a..b]
  {
    var u, n := front + s + back, |front|;
    var mid, part := u[n + a..n + b], s[a..b];
    forall i | 0 <= i < |part|
      ensures mid[i] == part[i]
    {
      assert mid[i] == u[n + a + i] == s[a + i];
    }
  }

  /** `char.ToLower` on the ASCII letters; every other character is its own lower case. */
  function LowerChar(c: char): char {
    if 'A' <= c <= 'Z' then (c as int + 32) as char else c
  }

  /** `string.ToLower()`. */
  function ToLower(s: String): (r: String)
    ensures |r| == |s|
    ensures forall i :: 0 <= i < |s| ==> r[i] == LowerChar(s[i])
  {
    seq(|s|, i requires 0 <= i < |s| => LowerChar(s[i]))
  }

  /** Two strings that differ only in the case of their letters. */
  predicate SameIgnoringCase(s: String, t: String) {
    |s| == |t| && forall i :: 0 <= i < |s| ==> LowerChar(s[i]) == LowerChar(t[i])
  }

  /** Lower-casing is idempotent and forgets exactly the case of letters. */
  lemma ToLowerIdempotent(s: String)
    ensures ToLower(ToLower(s)) == ToLower(s)
    ensures SameIgnoringCase(s, ToLower(s))
  {
  }

  /** Case never changes whether a character is white space. */
  lemma LowerKeepsWhiteSpace(c: char, d: char)
    requires LowerChar(c) == LowerChar(d)
    ensures IsWhiteSpace(c) <==> IsWhiteSpace(d)
  {
  }

  /** Re-casing keeps every white-space character where it is, so the
      trimmed re-cased string is the same slice. */
  lemma CaseKeepsTrimBounds(s: String, t: String)
    requires SameIgnoringCase(s, t)
    ensures TrimBounds(s).0 <= TrimBounds(s).1 <= |t|
    ensures Trim(t) == t[TrimBounds(s).0..TrimBounds(s).1]
  {
    forall i | 0 <= i < |s|
      ensures IsWhiteSpace(s[i]) <==> IsWhiteSpace(t[i])
    {
      LowerKeepsWhiteSpace(s[i], t[i]);
    }
    var ab := TrimBounds(s);
    TrimUnique(t, ab.0, ab.1);
  }

  lemma SlicesSameIgnoringCase(s: String, t: String, a: nat, b: nat)
    requires SameIgnoringCase(s, t) && a <= b <= |s|
    ensures ToLower(s[a..b]) == ToLower(t[a..b])
  {
    var ls, lt := ToLower(s[a..b]), ToLower(t[a..b]);
    forall i | 0 <= i < |ls|
      ensures ls[i] == lt[i]
    {
      assert ls[i] == LowerChar(s[a + i]) && lt[i] == LowerChar(t[a + i]);
    }
  }

  /** The normalised search term `s.Trim().ToLower()` depends only on `s` up to case. */
  lemma NormalisedTermIgnoresCase(s: String, t: String)
    requires SameIgnoringCase(s, t)
    ensures ToLower(Trim(s)) == ToLower(Trim(t))
  {
    var ab := TrimBounds(s);
    CaseKeepsTrimBounds(s, t);
    SlicesSameIgnoringCase(s, t, ab.0, ab.1);
  }

  /** `hay` starts with `prefix`. */
  predicate StartsWith(hay: String, prefix: String) {
    |prefix| <= |hay| && hay[..|prefix|] == prefix
  }

  /** `string.Contains(needle)`: ordinal substring search. */
  predicate Contains(hay: String, needle: String)
    decreases |hay|
  {
    StartsWith(hay, needle) || (|hay| > 0 && Contains(hay[1..], needle))
  }

  /** `needle` occurs in `hay` at position `i`. */
  predicate OccursAt(hay: String, needle: String, i: int) {
    0 <= i && i + |needle| <= |hay| && hay[i..i + |needle|] == needle
  }

  /** The search agrees with the positional definition of a substring. */
  lemma {:induction false} ContainsIffOccurs(hay: String, needle: String)
    ensures Contains(hay, needle) <==> exists i :: OccursAt(hay, needle, i)
    decreases |hay|
  {
    if StartsWith(hay, needle) {
      assert OccursAt(hay, needle, 0);
    } else if |hay| > 0 {
      var tail := hay[1..];
      ContainsIffOccurs(tail, needle);
      if Contains(tail, needle) {
        var i :| OccursAt(tail, needle, i);
        assert hay[i + 1..i + 1 + |needle|] == tail[i..i + |needle|];
        assert OccursAt(hay, needle, i + 1);
      }
      if i :| OccursAt(hay, needle, i) {
        assert i != 0;
        assert tail[i - 1..i - 1 + |needle|] == hay[i..i + |needle|];
        assert OccursAt(tail, needle, i - 1);
      }
    } else {
      assert forall i :: OccursAt(hay, needle, i) ==> i == 0 && StartsWith(hay, needle);
    }
  }

  /** A string contains every piece it is built from. */
  lemma ContainsInfix(before: String, needle: String, after: String)
    ensures Contains(before + needle + after, needle)
  {
    var hay := before + needle + after;
    assert OccursAt(hay, needle, |before|) by {
      assert hay[|before|..|before| + |needle|] == needle;
    }
    ContainsIffOccurs(hay, needle);
  }
}

=== FILE: user_service.dfy ===
/**
 * `UserService`: the filtered user list and disabling a user.
 */
module UserService {
  import opened Results
  import opened Text
  import opened Domain
  import opened Paging
  import opened Ordering
  import opened Listing

  // ----------------------------------------------------------------- listing

  datatype FilterUserRequest = FilterUserRequest(
    name: Option<String>,
    types: Option<seq<String>>,
    sortStaffCode: Option<SortOption>,
    sortFullName: Option<SortOption>,
    sortJoinedDate: Option<SortOption>,
    sortType: Option<SortOption>,
    sortLastUpdate: Option<SortOption>,
    pageNumber: Option<Int32>,
    pageSize: Option<Int32>)

  datatype FilterUserResponse = FilterUserResponse(
    id: Id,
    fullName: String,
    joinedDate: Option<DateTime>,
    staffCode: String,
    username: Option<String>,
    types: seq<String>)

  /** The requester as `FilterUserAsync` loads it: only a missing requester is
      refused; a disabled one is served. */
  function FilterRequester(users: seq<User>, currentUserId: Id): (r: Result<User>)
    ensures r.Err? ==> r.error == Unauthorized
    ensures r.Ok? <==> FindUser(users, currentUserId).Some?
    ensures r.Ok? ==> r.value in users && r.value.id == currentUserId
  {
    match FindUser(users, currentUserId)
    case None => Err(Unauthorized)
    case Some(u) => Ok(u)
  }

  /** The name of the user's first role, null for a user without roles. */
  function FirstRole(u: User): Option<String> {
    if |u.roles| == 0 then None else Some(u.roles[0])
  }

  /** The name clause: absent for a null or empty name; otherwise the name,
      as given, must occur in `FirstName + LastName` (no separator) or in the
      staff code. */
  predicate NameMatches(name: Option<String>, u: User) {
    || IsNullOrEmpty(name)
    || Contains(u.firstName + u.lastName, name.value)
    || Contains(u.staffCode, name.value)
  }

  /** The filter as written: `&&` binds tighter than `||`, so the location
      and disabled conditions only apply together with a type filter. */
  predicate UserMatches(filter: FilterUserRequest, location: Option<String>, u: User) {
    && NameMatches(filter.name, u)
    && (|| filter.types.None?
        || |filter.types.value| == 0
        || (&& FirstRole(u).Some? && FirstRole(u).value in filter.types.value
            && u.location == location
            && !u.isDisabled))
  }

  function Matcher(filter: FilterUserRequest, location: Option<String>): User -> bool {
    u => UserMatches(filter, location, u)
  }

  /** The precedence spelled out: without a type filter only the name
      counts, so disabled users and users of other locations are listed; with
      one, the user must also have a listed first role, the requester's
      location and be enabled. */
  lemma MatchesAsWritten(filter: FilterUserRequest, location: Option<String>, u: User)
    ensures filter.types.None? || |filter.types.value| == 0 ==>
              (UserMatches(filter, location, u) <==> NameMatches(filter.name, u))
    ensures filter.types.Some? && |filter.types.value| > 0 ==>
              (UserMatches(filter, location, u) <==>
                 && NameMatches(filter.name, u)
                 && |u.roles| > 0 && u.roles[0] in filter.types.value
                 && u.location == location
                 && !u.isDisabled)
  {
  }

  /** The columns a user list can sort by, in the order `GetOrderByExpression` tries them. */
  datatype UserSortField = ByStaffCode | ByFullName | ByJoinedDate | ByType | ByLastUpdate

  function Rank(field: UserSortField): nat {
    match field
    case ByStaffCode => 0
    case ByFullName => 1
    case ByJoinedDate => 2
    case ByType => 3
    case ByLastUpdate => 4
  }

  function Setting(filter: FilterUserRequest, field: UserSortField): Option<SortOption> {
    match field
    case ByStaffCode => filter.sortStaffCode
    case ByFullName => filter.sortFullName
    case ByJoinedDate => filter.sortJoinedDate
    case ByType => filter.sortType
    case ByLastUpdate => filter.sortLastUpdate
  }

  /** `GetOrderByExpression`: the first column (in `Rank` order) with a sort
      option set decides the order; with none set, latest joined first. */
  function GetOrderBy(filter: FilterUserRequest): (o: (UserSortField, SortOption))
    ensures (forall f :: Setting(filter, f).None?) ==> o == (ByJoinedDate, Desc)
    ensures (exists f :: Setting(filter, f).Some?) ==>
              && Setting(filter, o.0) == Some(o.1)
              && forall f :: Rank(f) < Rank(o.0) ==> Setting(filter, f).None?
  {
    if Setting(filter, ByStaffCode).Some? then (ByStaffCode, filter.sortStaffCode.value)
    else if Setting(filter, ByFullName).Some? then (ByFullName, filter.sortFullName.value)
    else if Setting(filter, ByJoinedDate).Some? then (ByJoinedDate, filter.sortJoinedDate.value)
    else if Setting(filter, ByType).Some? then (ByType, filter.sortType.value)
    else if Setting(filter, ByLastUpdate).Some? then (ByLastUpdate, filter.sortLastUpdate.value)
    else (ByJoinedDate, Desc)
  }

  function DateKey(d: Option<DateTime>): SortKey {
    if d.Some? then Number(d.value) else Null
  }

  /** The sort key of `u` for `field`; the full name sorts as `FirstName + LastName`. */
  function SortKeyOf(field: UserSortField, u: User): SortKey {
    match field
    case ByStaffCode => Str(u.staffCode)
    case ByFullName => Str(u.firstName + u.lastName)
    case ByJoinedDate => DateKey(u.joinedDate)
    case ByType => TextKey(FirstRole(u))
    case ByLastUpdate => DateKey(u.lastUpdated)
  }

  function KeyOf(field: UserSortField): User -> SortKey {
    u => SortKeyOf(field, u)
  }

  /** The displayed full name: first and last name with one space between. */
  function FullName(u: User): String {
    u.firstName + " " + u.lastName
  }

  function Project(u: User): FilterUserResponse {
    FilterUserResponse(u.id, FullName(u), u.joinedDate, u.staffCode, u.userName, u.roles)
  }

  /** `FilterUserAsync`: any resolvable requester gets the requested page of
      the matching users, in the requested order, with the number of matches. */
  function FilterUsers(users: seq<User>, currentUserId: Id, filter: FilterUserRequest): (r: Result<PagedResult<FilterUserResponse>>)
    ensures r.Err? ==> r.error == Unauthorized
    ensures r.Ok? <==> FindUser(users, currentUserId).Some?
    ensures r.Ok? ==>
              var me := FilterRequester(users, currentUserId).value;
              var o := GetOrderBy(filter);
              IsListing(r.value, users, Matcher(filter, me.location), KeyOf(o.0), o.1, Project, filter.pageNumber, filter.pageSize)
  {
    match FilterRequester(users, currentUserId)
    case Err(e) => Err(e)
    case Ok(me) =>
      var o := GetOrderBy(filter);
      Ok(List(users, Matcher(filter, me.location), KeyOf(o.0), o.1, Project, filter.pageNumber, filter.pageSize))
  }

  /** Every listed entry is the projection of a stored user the filter accepts. */
  lemma ListsOnlyMatchingUsers(users: seq<User>, currentUserId: Id, filter: FilterUserRequest, i: nat)
    ensures var r := FilterUsers(users, currentUserId, filter);
            r.Ok? && i < |r.value.data| ==>
              var me := FilterRequester(users, currentUserId).value;
              exists u :: u in users && UserMatches(filter, me.location, u) && r.value.data[i] == Project(u)
  {
    var r := FilterUsers(users, currentUserId, filter);
    if r.Ok? && i < |r.value.data| {
      var me := FilterRequester(users, currentUserId).value;
      var o := GetOrderBy(filter);
      ListingEntriesMatch(r.value, users, Matcher(filter, me.location), KeyOf(o.0), o.1, Project, filter.pageNumber, filter.pageSize);
      assert r.value.data[i] in r.value.data;
      var u :| u in users && Matcher(filter, me.location)(u) && r.value.data[i] == Project(u);
      assert UserMatches(filter, me.location, u);
    }
  }

  /** Only the name and type clauses decide which users are counted. */
  predicate SameCriteria(f: FilterUserRequest, g: FilterUserRequest) {
    f.name == g.name && f.types == g.types
  }

  /** The total count does not depend on the sort options or the paging. */
  lemma CountIgnoresOrderAndPaging(users: seq<User>, currentUserId: Id, f: FilterUserRequest, g: FilterUserRequest)
    requires SameCriteria(f, g)
    requires FindUser(users, currentUserId).Some?
    ensures FilterUsers(users, currentUserId, f).value.totalItemCount
         == FilterUsers(users, currentUserId, g).value.totalItemCount
  {
    var me := FilterRequester(users, currentUserId).value;
    var of, og := GetOrderBy(f), GetOrderBy(g);
    Listing.CountIgnoresOrderAndPaging(users, Matcher(f, me.location), Matcher(g, me.location),
                                       KeyOf(of.0), of.1, Project, f.pageNumber, f.pageSize,
                                       KeyOf(og.0), og.1, Project, g.pageNumber, g.pageSize);
  }

  /** The displayed full name is not the sort key: two users in ascending
      full-name order (by `FirstName + LastName`) can display their full names
      in descending order, because the space sorts before every letter. */
  lemma FullNameOrderDiffersFromDisplay(u: User, v: User)
    requires u.firstName == "Ann" && u.lastName == "B"
    requires v.firstName == "An" && v.lastName == "nC"
    ensures SortedBy([u, v], KeyOf(ByFullName), Asc)
    ensures !LexLe(Project(u).fullName, Project(v).fullName)
    ensures LexLe(Project(v).fullName, Project(u).fullName)
  {
    assert u.firstName + u.lastName == "AnnB";
    assert v.firstName + v.lastName == "AnnC";
    assert LexLe("AnnB", "AnnC") by {
      assert LexLe("B", "C");
      assert "AnnB"[1..] == "nnB" && "AnnC"[1..] == "nnC";
      assert "nnB"[1..] == "nB" && "nnC"[1..] == "nC";
      assert "nB"[1..] == "B" && "nC"[1..] == "C";
    }
    assert FullName(u) == "Ann B" && FullName(v) == "An nC";
    assert "Ann B"[1..] == "nn B" && "An nC"[1..] == "n nC";
    assert "nn B"[1..] == "n B" && "n nC"[1..] == " nC";
    assert !LexLe("n B", " nC");
    assert LexLe(" nC", "n B");
  }

  // --------------------------------------------------------------- disabling

  /** `DisableUserAsync`: set the found user's `IsDisabled`. Every failure,
      a missing user included, is rethrown as a generic error; `updateSucceeds`
      stands for the outcome `UserManager.UpdateAsync` reports. */
  function DisableUser(st: Store, userId: Id, updateSucceeds: bool): (t: Transition<()>)
    ensures t.result.Err? ==> t.result.error == Internal && t.store == st
    ensures t.result.Ok? <==> FindUser(st.users, userId).Some? && updateSucceeds
    ensures t.result.Ok? ==>
              && t.store.assets == st.assets
              && t.store.assignments == st.assignments
              && t.store.returningRequests == st.returningRequests
              && |t.store.users| == |st.users|
              && var k := FindIndex(st.users, UserKey, userId).value;
                 && t.store.users[k] == st.users[k].(isDisabled := true)
                 && forall j :: 0 <= j < |st.users| && j != k ==> t.store.users[j] == st.users[j]
  {
    match FindIndex(st.users, UserKey, userId)
    case None => Transition(Err(Internal), st)
    case Some(k) =>
      if !updateSucceeds then Transition(Err(Internal), st)
      else Transition(Ok(()), st.(users := st.users[k := st.users[k].(isDisabled := true)]))
  }

  /** After a successful disable the user is found, and found disabled. */
  lemma DisableUserDisables(st: Store, userId: Id)
    requires FindUser(st.users, userId).Some?
    ensures var st' := DisableUser(st, userId, true).store;
            FindUser(st'.users, userId).Some? && FindUser(st'.users, userId).value.isDisabled
  {
    var st' := DisableUser(st, userId, true).store;
    FindIndexSameKeys(st.users, st'.users, UserKey, userId);
  }

  /** Disabling is idempotent: disabling a disabled user succeeds and leaves
      the same store. */
  lemma DisableUserIdempotent(st: Store, userId: Id)
    requires FindUser(st.users, userId).Some?
    ensures var st' := DisableUser(st, userId, true).store;
            DisableUser(st', userId, true) == Transition(Ok(()), st')
  {
    var st' := DisableUser(st, userId, true).store;
    FindIndexSameKeys(st.users, st'.users, UserKey, userId);
  }

  /** Disabling an already-disabled user succeeds and changes nothing. */
  lemma DisableDisabledUserIsNoOp(st: Store, userId: Id)
    requires FindUser(st.users, userId).Some? && FindUser(st.users, userId).value.isDisabled
    ensures DisableUser(st, userId, true) == Transition(Ok(()), st)
  {
    assert DisableUser(st, userId, true).store.users == st.users;
  }

  /** Disabling touches neither assets nor assignments, so the store stays consistent. */
  lemma DisableUserKeepsConsistent(st: Store, userId: Id, updateSucceeds: bool)
    requires Consistent(st)
    ensures Consistent(DisableUser(st, userId, updateSucceeds).store)
  {
  }
}

=== FILE: workflow.dfy ===
/**
 * How the services' rules meet: disabling a user closes the doors the other
 * services guard with the user's `IsDisabled` flag.
 */
module Workflow {
  import opened Results
  import opened Domain
  import AssignmentService
  import UserService
  import ReturningRequestService

  /** A disabled user can no longer be assigned an asset. */
  lemma DisabledUserCannotBeAssigned(st: Store, userId: Id, currentUserId: Id,
                                     request: AssignmentService.AssignmentCreationRequest, newId: Id)
    requires FindUser(st.users, userId).Some?
    requires request.userId == userId
    requires forall a :: a in st.assignments ==> a.id != newId
    ensures var st' := UserService.DisableUser(st, userId, true).store;
            AssignmentService.CreateAssignment(st', currentUserId, request, newId) == Transition(Err(BadRequest), st')
  {
    UserService.DisableUserDisables(st, userId);
  }

  /** A disabled administrator can no longer ask for returns: the request is
      refused with `BadRequest` once the assignment is found. */
  lemma DisabledUserCannotRequestReturn(st: Store, userId: Id, assignmentId: Id)
    requires FindUser(st.users, userId).Some?
    ensures var st' := UserService.DisableUser(st, userId, true).store;
            ReturningRequestService.CreateRequestByAdmin(st', userId, assignmentId).result
              == if ReturningRequestService.GetAssignment(st.assignments, assignmentId).Err? then Err(NotFound) else Err(BadRequest)
  {
    UserService.DisableUserDisables(st, userId);
  }

  /** A disabled administrator can no longer list assignments. */
  lemma DisabledUserCannotListAssignments(st: Store, userId: Id, filter: AssignmentService.FilterAssignmentRequest)
    requires FindUser(st.users, userId).Some?
    ensures var st' := UserService.DisableUser(st, userId, true).store;
            AssignmentService.FilterAssignments(st', userId, filter) == Err(Unauthorized)
  {
    UserService.DisableUserDisables(st, userId);
  }

  /** The user list is the exception: it only refuses unknown requesters, so
      a disabled user can still list users. */
  lemma DisabledUserCanStillListUsers(st: Store, userId: Id, filter: UserService.FilterUserRequest)
    requires FindUser(st.users, userId).Some?
    ensures var st' := UserService.DisableUser(st, userId, true).store;
            UserService.FilterUsers(st'.users, userId, filter).Ok?
  {
    UserService.DisableUserDisables(st, userId);
  }
}
